=== FILE: README.md ===
# Food delivery orders, modelled in Dafny

This project models the core of a small food-delivery service. The service has a Django REST
API with customers, drivers and restaurants, and an interactive command-line client.

The model covers these parts:

- **The order store and its lifecycle** (`domain.dfy`, `dispatch.dfy`, `lifecycle.dfy`). Orders carry:
  - a customer and an optional driver;
  - a status: Pending, Delivering, Delivered or Cancelled;
  - a total in integer cents;
  - two confirmation flags.

  The order endpoints are pure functions from a store to an outcome: the caller's query set,
  `cancel`, `confirm_receipt`, `available_jobs`, `accept_job` and `complete_job`, and the
  viewset's generic update and destroy. An outcome is either a new store or a refusal with its
  API error, and a refusal leaves the store as it was.
  A store is *reachable* when a sequence (`Run`) of the five lifecycle calls leads to it from the
  empty store. These calls are order creation, `cancel`, `accept_job`, `complete_job` and
  `confirm_receipt`.
  The generic update is not one of them: it writes any status and any total to an order in the
  caller's query set, and `UpdateBreaksInv` shows it breaking the invariants. Every reachable
  store keeps these invariants:
  - an order is Delivered exactly when both parties have confirmed;
  - a driver is assigned exactly while the order is Delivering or Delivered;
  - a claimed job keeps its driver;
  - Delivered and Cancelled are final;
  - line items are never rewritten.
- **Order creation** (`ledger.dfy`). `CreateOrderSerializer.create` is modelled as a function and
  as the equivalent loop (`PlaceOrder`). It copies each item's price into a line-item snapshot,
  sums price times quantity, and silently skips unknown menu ids. When a quantity the column refuses is
  rejected part way, the order row and the earlier line items are already written.
- **Registration** (`validators.dfy`, `registration.dfy`).
  - The client's input validators:
    - email, with the regular expression modelled both as a scan and as a pattern, and the two proved equal;
    - username, password and phone number;
    - non-empty text, using Python's `str.strip`.
  - The `final_data` payload the client submits.
  - The server serializer: whitespace trimming of text fields, the refusal of NUL characters,
    the required username, email, password and role, a duplicate username, the new account with
    its normalised email, and the copy of the non-blank profile fields.
- **The client's cart and order menus** (`numerals.dfy`, `cart.dfy`, `order_menus.dfy`).
  - The cart's commands: add, browse-add, remove, clear and checkout.
  - Stringification of the cart's keys for the request body, which the server reads back with `int`.
  - The cancel and complete menus: they filter by status, and the chosen entry's label is parsed back into an order id.

Conventions:
- Money is integer cents; the decimal columns have two decimal places.
- A Python `None` field, or a key not sent, is `None` in `Option`.
- HTTP, the database and the prompts are parameters: the answers typed at a prompt, the HTTP
  status the server returned, and the catalogue of menu items.

## Model

| member | source | states |
|---|---|---|
| Domain.NewOrder | delivery/models.py:84-91 | a fresh order belongs to its customer, has no driver, is Pending with total 0 and neither confirmation |
| Domain.ParseStatus | delivery/models.py:77-82 | whatever text it accepts is the stored label of the status it returns |
| Domain.StatusLabelsDistinct | delivery/models.py:77-82 | distinct statuses have distinct labels, and every label parses back to its status |
| Domain.DeleteOrder | delivery/models.py:97 | deleting an order removes exactly that order and its line items, keeps every other order and line list, and keeps the next id |
| Dispatch.Queryset | delivery/api_views.py:42-48 | a driver addresses their own deliveries plus every unclaimed Pending order; anyone else addresses exactly the orders they placed |
| Dispatch.Cancel | delivery/api_views.py:57-64 | succeeds iff the order is in the caller's query set and Pending; then only that order changes, and only its status, to Cancelled; NotFound iff outside the query set, otherwise CannotCancel |
| Dispatch.ConfirmReceipt | delivery/api_views.py:66-77 | succeeds iff the caller addresses the order and owns it; a refusal is 404 exactly when the order is outside the caller's query set, otherwise 400; sets the customer flag, keeps the driver flag, driver, owner and total; Delivered iff the driver had confirmed (or it already was) |
| Dispatch.AvailableJobs | delivery/api_views.py:79-85 | drivers only (403 otherwise); lists exactly the Pending orders without a driver |
| Dispatch.AcceptJob | delivery/api_views.py:87-97 | succeeds iff a driver claims an existing Pending unclaimed order; the order gets that driver and Delivering and nothing else changes; errors 403, 404 (outside the query set) or 400 |
| Dispatch.CompleteJob | delivery/api_views.py:99-111 | succeeds iff the caller is the order's driver; a non-driver gets 403, and a driver's refusal is 404 exactly when the order is outside their query set, otherwise 400; sets the driver flag, keeps the customer flag; Delivered iff the customer had confirmed (or it already was) |
| Dispatch.UpdateOrder | delivery/serializers.py:36-42 | PUT or PATCH succeeds iff the order is in the caller's query set, the status is one of the four labels and the total fits eight digits; it then writes exactly the given status and total, unguarded, and keeps owner, driver and confirmations |
| Dispatch.DestroyOrder | delivery/api_views.py:38-48 | DELETE succeeds iff the order is in the caller's query set, whatever its status; it removes exactly that order and its line items, keeps every other order and line list, and keeps the next id |
| Dispatch.UpdateUndone | delivery/serializers.py:36-42 | a successful update is undone by writing back the order's old status label and total, for a caller who still addresses the order afterwards (anyone but a driver who has not claimed it) |
| Dispatch.ListedJobsAreClaimable | delivery/api_views.py:79-97 | an order is in a driver's job list exactly when that driver's claim on it succeeds, and each listed job is in the driver's query set |
| Dispatch.DriverCanCancelOthersJob | delivery/api_views.py:42-64 | a driver can cancel any unclaimed Pending order, including one another customer placed |
| Ledger.FirstRejected | delivery/models.py:99 | locates the first resolvable entry whose quantity the quantity column refuses, negative or above 2147483647; all earlier entries are accepted |
| Ledger.CreateOrder | delivery/serializers.py:92-115 | the new order takes the next id and nothing else in the store changes; the creation succeeds iff every resolvable entry's quantity lies in 0..2147483647 |
| Ledger.PlaceOrder | delivery/serializers.py:97-115 | the loop that appends a line per resolvable entry and accumulates the total produces exactly the store and outcome of CreateOrder |
| Ledger.OversizedQuantityRejected | delivery/models.py:99 | a quantity of 2147483648 on a free item is refused after the order row is written, leaving order 1 with total 0 and no line item |
| Ledger.LinesTotalIsRequestTotal | delivery/serializers.py:103-109 | the sum of quantity times snapshot price over the written line items equals the total accumulated from the request |
| Ledger.LinesAreSnapshots | delivery/serializers.py:102-108 | every line item is for a catalogue item, carries that item's current price, and comes from a request entry with the same quantity |
| Ledger.ResolvableEntriesHaveLines | delivery/serializers.py:100-108 | every request entry whose id resolves yields its line item |
| Ledger.LineCountIsResolvableEntries | delivery/serializers.py:100-111 | the number of line items is the number of request entries whose id resolves |
| Ledger.LineCountIsResolvableKeys | delivery/serializers.py:100-111 | for a request with distinct keys, the number of line items is the number of distinct resolvable ids |
| Ledger.CreatedOrderShape | delivery/serializers.py:92-115 | a successful creation stores an unclaimed Pending order of the caller, with no confirmations, the request's total and its line items, and the total matches the items |
| Ledger.UnknownIdsSkipped | delivery/serializers.py:110-111 | appending an id the catalogue does not hold changes nothing in the result |
| Ledger.EmptyRequestCreatesEmptyOrder | delivery/serializers.py:97-115 | an empty items object still creates an order, with total 0 and no line items |
| Ledger.TotalFitsColumn | delivery/models.py:70-87 | with non-negative six-digit prices and at most 100 units in all, the total fits the eight-digit total column |
| Lifecycle.StepPreservesInv | delivery/api_views.py:57-111 | every lifecycle call keeps the order invariants: Delivered iff both confirmed, driver confirmation only with a driver, driver assigned iff Delivering or Delivered |
| Lifecycle.RunPreservesInv | delivery/api_views.py:57-111 | the invariants hold after any sequence of lifecycle calls |
| Lifecycle.DeleteKeepsInv | delivery/models.py:97 | deleting an order together with its line items keeps the store invariants |
| Lifecycle.DestroyKeepsInv | delivery/api_views.py:38-48 | the generic destroy, committed or refused, keeps the store invariants |
| Lifecycle.UpdateBreaksInv | delivery/serializers.py:36-42 | a customer's PATCH of their own unclaimed Pending order to Delivered succeeds and leaves a store that breaks the invariants |
| Lifecycle.UpdateKeepsInvIff | delivery/serializers.py:36-42 | on a store that keeps the invariants, a successful update keeps them exactly when the written status is Delivered iff both parties confirmed, and Pending or Cancelled iff the order has no driver |
| Lifecycle.EmptyStoreInv | delivery/models.py:76-91 | the empty store satisfies the invariants |
| Lifecycle.DeliveredIsConfirmed | delivery/api_views.py:66-111 | in every reachable store a Delivered order has both confirmations and a driver |
| Lifecycle.StepFollowsTable | delivery/api_views.py:57-111 | a lifecycle call moves an existing order only Pending to Delivering or Cancelled, or Delivering to Delivered |
| Lifecycle.TerminalStatesStay | delivery/api_views.py:57-111 | no sequence of lifecycle calls moves an order out of Delivered or Cancelled |
| Lifecycle.DriverStaysAfterStep | delivery/api_views.py:87-97 | no single lifecycle call changes an assigned driver |
| Lifecycle.DriverStays | delivery/api_views.py:87-97 | no sequence of lifecycle calls changes an assigned driver |
| Lifecycle.ClaimIsExclusive | delivery/api_views.py:87-97 | after a successful claim, whatever lifecycle calls follow, the claimant stays the driver and every later claim by anyone is refused |
| Lifecycle.ConfirmationsCommute | delivery/tests/test_orders.py:60-83 | the driver's and the customer's confirmations in either order give the same store, whose order is the original with both flags set and status Delivered, and nothing else changed; the customer must not hold the Driver role, because such a customer addresses their order only while it is unclaimed (delivery/api_views.py:42-48), so their confirmation gets 404 once another driver has claimed it |
| Lifecycle.ConfirmReceiptIdempotent | delivery/api_views.py:66-77 | repeating a successful customer confirmation yields the same result again |
| Lifecycle.CompleteJobIdempotent | delivery/api_views.py:99-111 | repeating a successful driver confirmation yields the same result again |
| Lifecycle.SnapshotsFrozen | delivery/models.py:96-100 | no sequence of lifecycle calls rewrites an existing order's line items; this holds only while no menu item, restaurant or restaurant owner is deleted, since those deletions cascade to line items |
| Lifecycle.StepKeepsPricing | delivery/serializers.py:97-115 | every lifecycle call except a rejected creation keeps every order's total equal to the sum over its line items; this holds only while no menu item, restaurant or restaurant owner is deleted, since those deletions cascade to line items |
| Lifecycle.RejectedPlaceLeavesPartialOrder | delivery/serializers.py:98-109 | a request whose second entry has a negative quantity leaves order 1 with total 0 and the first line item, so its total disagrees with its items |
| Validators.ValidateUsername | cli/registration.py:33-44 | accepts iff at least 3 characters and all letters, digits or underscore, bar one final newline that `$` lets through; the length message takes precedence |
| Validators.ValidatePassword | cli/registration.py:46-52 | accepts iff at least 4 characters |
| Validators.DigitsOnly | cli/registration.py:64 | keeps only digits, every digit of the text appears, and an all-digit text is kept whole |
| Validators.DigitsOnlyCounts | cli/registration.py:64 | each digit occurs in the result as often as in the text, and no other character occurs |
| Validators.DigitsOnlyAppend | cli/registration.py:64 | the digits of a concatenation are the digits of each part, in order |
| Validators.ValidatePhone | cli/registration.py:54-69 | accepts iff non-empty, made of digits, whitespace, `+-()`, and holding at least 7 digits; an empty text or a bad character gives the character message, and otherwise too few digits give the digit-count message |
| Validators.ValidateNonEmpty | cli/registration.py:71-80 | accepts iff the stripped text is non-empty; the message names the field |
| Validators.StripIsTrimmedSlice | cli/registration.py:76 | stripping yields a contiguous slice with no whitespace at either end |
| Validators.NonEmptyRejectsOnlyBlank | cli/registration.py:71-80 | the field is rejected exactly when every character is whitespace |
| Validators.NulSurvivesStrip | delivery/serializers.py:50-63 | trimming keeps every NUL character, so a character field holds a NUL after cleaning exactly when the sent text does |
| Validators.ValidateEmail | cli/registration.py:24-31 | accepts exactly the texts the email pattern matches, whole or before one final newline |
| Validators.EmailScanMatchesPattern | cli/registration.py:26 | the left-to-right scan accepts exactly the texts that split as local part, '@', domain, '.', two or more letters |
| Validators.EmailHasOneAt | cli/registration.py:26 | an accepted email holds exactly one '@' |
| Registration.FinalPayload | cli/registration.py:416-435 | the five base fields always, as typed; for a Customer the address iff non-empty and no driver field; otherwise each driver field iff non-empty and no address; each sent value is the typed one |
| Registration.ValidateRole | delivery/serializers.py:53 | only Customer and Driver are accepted, exactly, never Restaurant Owner |
| Registration.InvalidFields | delivery/serializers.py:50-63 | username and password are at fault iff absent, blank once trimmed or holding a NUL; email iff so or refused by the email validator; role iff not an offered choice; each optional field iff sent with a NUL |
| Registration.NoInvalidFields | delivery/serializers.py:50-63 | a body passes validation exactly when all four required fields are acceptable and no sent field holds a NUL |
| Registration.CopyTruthy | delivery/serializers.py:81-85 | the role is written; a field with a truthy value is overwritten; every other field keeps its previous value |
| Registration.ProfileData | delivery/serializers.py:70-78 | the profile data holds the validated role and each optional field's trimmed value, or null when not sent |
| Registration.CleanedCopy | delivery/serializers.py:54-85 | on a new profile, each optional field ends up set exactly when it was sent non-blank, and then holds the trimmed text |
| Registration.NormalizeEmail | delivery/serializers.py:66-67 | `create_user` keeps the address up to its last '@' and lower-cases the ASCII letters after it; an address without '@' is kept |
| Registration.NormalizeEmailIdempotent | delivery/serializers.py:66-67 | normalising a normalised address changes nothing |
| Registration.RegisterProfile | delivery/serializers.py:49-86 | rejected with exactly the invalid fields when there are any; a duplicate username iff the body is valid and its trimmed username is taken; otherwise an account of the trimmed username and password and the trimmed email with its domain lower-cased, a profile with the sent role and each optional field set iff sent non-blank, trimmed |
| Registration.SubmittedRegistersIff | cli/registration.py:416-438 | a submitted draft with an offered role registers exactly when its trimmed username and password are not blank, its trimmed email is not blank and accepted, the username is free, and no field it sends for its role holds a NUL |
| Registration.SubmittedCustomerProfile | cli/registration.py:416-426 | a submitted Customer draft registers iff the server accepts it, and then gives a Customer profile with the trimmed phone and address iff not blank, and no driver field |
| Registration.SubmittedDriverProfile | cli/registration.py:427-435 | a submitted Driver draft registers iff the server accepts it, and then gives a Driver profile with each trimmed driver field and the phone iff not blank, and no address |
| Registration.CustomerFields | delivery/serializers.py:70-85 | a profile built from a submitted Customer draft holds the trimmed phone and address iff not blank, and no driver field |
| Registration.DriverFields | delivery/serializers.py:70-85 | a profile built from a submitted Driver draft holds each trimmed driver field and the phone iff not blank, and no address |
| Registration.AcceptedUsernameKept | delivery/serializers.py:50 | a username the client accepts is neither blank nor holding a NUL to the server, and is stored as typed less a final newline |
| Registration.AcceptedEmailKept | delivery/serializers.py:51-67 | an email the client accepts is neither blank nor holding a NUL to the server, trims to itself less a final newline, and is stored with the local part and its one '@' as typed and the domain lower-cased |
| Registration.AcceptedPhoneKept | delivery/serializers.py:54-85 | a phone number the client accepts is neither blank nor holding a NUL to the server, and a registration whose body sends it stores its trimmed text as the profile's phone number |
| Registration.BlankPasswordPassesOnlyTheClient | cli/registration.py:46-52 | a password of four spaces passes the client's check, and the server rejects it as blank |
| Registration.PasswordsOnlyTheClientAccepts | cli/registration.py:46-52 | the passwords the client accepts and the server rejects as blank are exactly those of four or more whitespace characters |
| Numerals.ShowInt | delivery/management/commands/runcli.py:391 | `str(n)`: a minus sign exactly when n is negative, then ASCII digits with no leading zero, "0" for zero |
| Numerals.ParseInt | delivery/management/commands/runcli.py:291 | `int(text)` succeeds exactly when the trimmed text is an optional sign followed by one or more ASCII digits, and then gives the digits' value, negated after a minus |
| Numerals.ParseShow | delivery/management/commands/runcli.py:391 | `int(str(n)) == n` for every integer |
| Numerals.ShowIntInjective | delivery/management/commands/runcli.py:391 | distinct ids stringify to distinct keys |
| Numerals.ShowImageSize | delivery/management/commands/runcli.py:391 | stringifying a set of ids loses none of them |
| Cart.AddToCart | delivery/management/commands/runcli.py:305-313 | a non-positive quantity is refused with the cart untouched; otherwise the id's quantity grows by it and every other entry is kept |
| Cart.BrowseAdd | delivery/management/commands/runcli.py:280-298 | an id off the menu does nothing; unparsable text is reported with the cart untouched; a parsed quantity behaves as `cart add` |
| Cart.RemoveFromCart | delivery/management/commands/runcli.py:315-322 | removes exactly the named entry; an absent id is reported and nothing changes |
| Cart.ClearCart | delivery/management/commands/runcli.py:348-365 | the cart ends empty iff it was empty or the user confirmed; otherwise it is unchanged |
| Cart.OrderPayload | delivery/management/commands/runcli.py:390-391 | every cart entry appears under its stringified id with its quantity, and nothing else appears |
| Cart.CheckoutCart | delivery/management/commands/runcli.py:372-399 | a request is sent iff the cart is non-empty and the user confirmed; the cart empties only on HTTP 201 |
| Cart.PayloadRoundTrip | delivery/serializers.py:90-102 | every key of the request body parses back to a cart id with the same quantity, and there are as many keys as cart entries |
| Cart.CheckoutQuantitiesAccepted | delivery/serializers.py:100-109 | any listing of a cart's positive quantities creates its order exactly when every item on the menu is held at most 2147483647 times |
| Cart.AddTwiceIsAddSum | delivery/management/commands/runcli.py:312 | adding a then b is adding a + b |
| Cart.AddsCommute | delivery/management/commands/runcli.py:312 | the order of two additions does not matter |
| Cart.BrowseAddMatchesAdd | delivery/management/commands/runcli.py:290-294 | typing `str(q)` at the browse prompt acts as `cart add` with q |
| Cart.SessionKeepsPositive | delivery/management/commands/runcli.py:292-322 | every cart reachable through the cart commands holds positive quantities only |
| OrderMenus.RowsWithStatus | delivery/management/commands/runcli.py:429 | keeps exactly the rows whose status is wanted |
| OrderMenus.FirstField | delivery/management/commands/runcli.py:449 | `split(c)[0]` is the prefix of the text up to the first `c`, or the whole text when there is none |
| OrderMenus.SecondField | delivery/management/commands/runcli.py:449 | `split(c)[1]` exists iff `c` occurs, and is the text after the first `c` up to the next `c` or the end |
| OrderMenus.PickedId | delivery/management/commands/runcli.py:449 | a label without '#' yields nothing (Python's IndexError); otherwise the id is `int` of the text after the first '#' up to the next space or '#' |
| OrderMenus.MenuTarget | delivery/management/commands/runcli.py:423-449 | an explicit non-zero id is used as given; otherwise the command goes ahead iff an entry is chosen, and it acts on that entry's order |
| OrderMenus.PickedIdOfLabel | delivery/management/commands/runcli.py:435-449 | reading a menu label back yields the id it was built from, whatever the caption holds |
| OrderMenus.CancelMenuMatchesCancel | delivery/management/commands/runcli.py:428-431 | the cancel menu offers exactly the orders on which the caller's cancellation succeeds |
| OrderMenus.CancelFromMenu | delivery/management/commands/runcli.py:423-461 | choosing any cancel menu entry cancels that entry's order |
| OrderMenus.CompleteMenuIsOwnActiveJobs | delivery/management/commands/runcli.py:510-520 | in any store a driver's complete menu offers exactly their own Delivering orders, and completing each succeeds; the Confirmed alternative matches nothing |

## Left out

- The OTP login and registration views, JWT authentication and the HTTP plumbing are not modelled. A caller is an authenticated `(id, role)`; every user has a profile because of the post-save signal.
- The `created_at` timestamp is left out, because it comes from the clock.
- Lifecycle: the invariants and the lemmas about reachable stores (`DeliveredIsConfirmed`, `TerminalStatesStay`, `DriverStays`, `SnapshotsFrozen`, `StepKeepsPricing`, `ClaimIsExclusive`) cover only the five lifecycle calls. They say nothing about a store after the generic update (`UpdateOrder`), which can set any status or total on an order in the caller's query set. The generic destroy keeps the invariants (`DestroyKeepsInv`) but is not a lifecycle step, because it removes the order those lemmas follow.
- Dispatch.UpdateOrder: a total with more than two decimal places, and a status or total of a JSON type other than string or number, are not modelled; the model takes the total in cents.
- Deleting a user (`SET_NULL` on an order's owner and driver) is left out.
- Deleting a menu item, a restaurant or a restaurant owner is left out. These deletions cascade (delivery/models.py:61, 67 and 98): they delete the line items of existing orders, whose totals then no longer equal the sum over their items. `SnapshotsFrozen` and `StepKeepsPricing` hold only while no such deletion happens.
- `OrderSerializer.get_restaurant_name` and the other read-only serializers are left out. Their output enters the client only as the menu caption, which is a free parameter.
- Concurrency is not modelled. `accept_job` reads the order and then saves it; two simultaneous claims can both pass the check. The model's claim is one sequential step, so `ClaimIsExclusive` holds only for sequential calls.
- Transactions are not modelled. The model assumes autocommit, so a failing line-item insert leaves the order row and the earlier items written. If the deployment wraps requests in a transaction, those writes are rolled back instead.
- Ledger.CreateOrder: an overflow of the eight-digit total column when the order is saved is not modelled. `TotalFitsColumn` gives a sufficient condition under which it cannot happen. The request is modelled after the REST framework has accepted it. Its 400 refusals, which come before anything is written, are not modelled: a missing `items` key, an `items` value that is not an object, and a quantity that is not an integer (such as `"two"` or `1.5`). The quantity bound 2147483647 is that of PostgreSQL's `integer` column (the database scripts/create_db.py creates); on SQLite the bound would be 2^63 - 1.
- Request-body cleaning by the REST framework is not modelled: the dictionary field's key coercion, and integer values given as strings. A non-numeric key raises `ValueError` at lookup; the cart sends only stringified integers.
- ParseInt: Python's `int` also accepts underscores between digits and non-ASCII digits. The model accepts only ASCII digits with an optional sign and surrounding ASCII whitespace.
- Validators: the regular expressions' classes are read as ASCII. Python's `\d` and `\s` on `str` also match other Unicode digits and spaces, and `str.strip` also removes other Unicode spaces. The `$` anchor is modelled as Python reads it: the end of the text, or the position just before a final newline. So `"abc\n"` and `"a@b.cd\n"` are accepted. The phone pattern's class already holds the newline, so its verdict is the same either way.
- Registration.RegisterProfile: Django's own email validator is a parameter (`emailAccepted`), applied to the trimmed address. `create_user` also applies Unicode NFKC normalisation to the username, which is not modelled; it changes no ASCII text, and the client accepts only ASCII usernames. `NormalizeEmail` lower-cases ASCII letters only, where Python's `str.lower` also lower-cases other letters. The password is stored hashed; the account's `password` is the trimmed text before hashing. Database column lengths, JSON `null` and non-string JSON values are not modelled. The taken usernames are a parameter (`taken`), compared exactly as the unique index compares them. A duplicate username surfaces as a database integrity error from `create_user`; it is modelled as the outcome `DuplicateUsername`.
- Cart.BrowseAdd: a dismissed quantity prompt returns `None`, and `int(None)` raises a `TypeError` that the client does not catch. That crash is not modelled.
- The client's HTTP calls, screen output, menus other than cancel and complete, the seed command and the maintenance scripts are left out: they are I/O around the modelled decisions.
- Behaviours of the code worth knowing, modelled as written:
  - a driver can address and cancel another customer's unclaimed Pending order;
  - neither confirmation checks the order's status;
  - unknown menu ids are skipped rather than rejected;
  - an empty items object creates an empty order;
  - the complete menu also filters for a `Confirmed` status that no order can have;
  - the generic update (PUT or PATCH on an order) writes `status` and `total_price` for any caller who can address the order, with no lifecycle guard;
  - the generic destroy deletes any order in the caller's query set, whatever its status;
  - the client accepts a password of four spaces, which the server rejects as blank;
  - a customer who holds the Driver role addresses their own order only while it is unclaimed, so once another driver claims it their confirmation gets 404;
  - every character field, optional profile fields included, refuses a value holding a NUL character with 400.

=== FILE: cart.dfy ===
/**
 The command-line client's in-memory shopping cart: menu item id to quantity.
 The prompts' answers (quantity text, yes/no confirmations) and the server's
 HTTP status for the order request are parameters.
 */
module Cart {
  import opened Domain
  import opened Numerals
  import Ledger

  type Cart = map<MenuId, int>

  /** Every stored quantity is positive. */
  predicate AllPositive(c: Cart)
  {
    forall id :: id in c ==> c[id] > 0
  }

  function Held(c: Cart, id: MenuId): int
  {
    if id in c then c[id] else 0
  }

  datatype Notice =
    | Added | QuantityNotPositive | InvalidQuantity
    | Removed | NotInCart
    | Cleared | AlreadyEmpty | ClearDeclined
    | CartEmpty | CheckoutDeclined | OrderPlaced | OrderFailed

  datatype CartStep = CartStep(cart: Cart, notice: Notice)

  /** `cart add`: a positive quantity is added to what the cart holds. */
  function AddToCart(c: Cart, id: MenuId, qty: int): (r: CartStep)
    ensures qty <= 0 ==> r == CartStep(c, QuantityNotPositive)
    ensures qty > 0 ==>
      && r.notice == Added
      && r.cart.Keys == c.Keys + {id}
      && r.cart[id] == Held(c, id) + qty
      && forall k :: k in c && k != id ==> r.cart[k] == c[k]
  {
    if qty <= 0 then CartStep(c, QuantityNotPositive)
    else CartStep(c[id := Held(c, id) + qty], Added)
  }

  /**
   The add branch of `browse`: an id not on the restaurant's menu does
   nothing; otherwise the quantity text is read with `int`, and anything it
   refuses is reported without touching the cart.
   */
  function BrowseAdd(c: Cart, menu: seq<MenuId>, id: MenuId, qtyText: string): (r: Option<CartStep>)
    ensures id !in menu <==> r.None?
    ensures r.Some? && ParseInt(qtyText).None? ==> r.value == CartStep(c, InvalidQuantity)
    ensures r.Some? && ParseInt(qtyText).Some? ==> r.value == AddToCart(c, id, ParseInt(qtyText).value)
  {
    if id !in menu then None
    else match ParseInt(qtyText)
      case None => Some(CartStep(c, InvalidQuantity))
      case Some(q) => Some(if q > 0 then CartStep(c[id := Held(c, id) + q], Added) else CartStep(c, QuantityNotPositive))
  }

  /** `cart remove`: only the named entry goes; an absent id is reported. */
  function RemoveFromCart(c: Cart, id: MenuId): (r: CartStep)
    ensures id !in c ==> r == CartStep(c, NotInCart)
    ensures id in c ==> r.notice == Removed && r.cart.Keys == c.Keys - {id}
    ensures forall k :: k in r.cart ==> k in c && r.cart[k] == c[k]
  {
    if id in c then CartStep(c - {id}, Removed) else CartStep(c, NotInCart)
  }

  /** `cart clear`: empties the cart only once the user confirms. */
  function ClearCart(c: Cart, confirmed: bool): (r: CartStep)
    ensures r.cart == map[] <==> c == map[] || confirmed
    ensures r.cart != map[] ==> r.cart == c && r.notice == ClearDeclined
    ensures c == map[] ==> r.notice == AlreadyEmpty
  {
    if c == map[] then CartStep(c, AlreadyEmpty)
    else if confirmed then CartStep(map[], Cleared)
    else CartStep(c, ClearDeclined)
  }

  /** The order request body's `items`: the cart under stringified ids. */
  function OrderPayload(c: Cart): (p: map<string, int>)
    ensures forall id :: id in c ==> ShowInt(id) in p && p[ShowInt(id)] == c[id]
    ensures forall key :: key in p ==> exists id :: id in c && key == ShowInt(id)
  {
    ShowIntInjective();
    map id | id in c :: ShowInt(id) := c[id]
  }

  datatype Checkout = Checkout(cart: Cart, sent: Option<map<string, int>>, notice: Notice)

  /**
   Checkout: an empty cart or a declined confirmation sends nothing; else the
   payload is sent and the cart is emptied only on HTTP 201.
   */
  function CheckoutCart(c: Cart, confirmed: bool, httpStatus: int): (r: Checkout)
    ensures r.sent.Some? <==> c != map[] && confirmed
    ensures r.sent.Some? ==> r.sent.value == OrderPayload(c)
    ensures r.cart == map[] <==> c == map[] || (confirmed && httpStatus == 201)
    ensures r.cart != map[] ==> r.cart == c
  {
    if c == map[] then Checkout(c, None, CartEmpty)
    else if !confirmed then Checkout(c, None, CheckoutDeclined)
    else
      var p := OrderPayload(c);
      if httpStatus == 201 then Checkout(map[], Some(p), OrderPlaced)
      else Checkout(c, Some(p), OrderFailed)
  }

  /** The server reads each key back with `int`: decoding the payload gives back the cart. */
  lemma PayloadRoundTrip(c: Cart)
    ensures var p := OrderPayload(c);
      && (forall key :: key in p ==> ParseInt(key).Some? && ParseInt(key).value in c && c[ParseInt(key).value] == p[key])
      && |p| == |c|
  {
    var p := OrderPayload(c);
    forall key | key in p
      ensures ParseInt(key).Some? && ParseInt(key).value in c && c[ParseInt(key).value] == p[key]
    {
      KeyParsesBack(c, key);
    }
    PayloadSize(c);
  }

  lemma KeyParsesBack(c: Cart, key: string)
    requires key in OrderPayload(c)
    ensures ParseInt(key).Some? && ParseInt(key).value in c && c[ParseInt(key).value] == OrderPayload(c)[key]
  {
    var id :| id in c && key == ShowInt(id);
    ParseShow(id);
  }

  lemma PayloadSize(c: Cart)
    ensures |OrderPayload(c)| == |c|
  {
    var p := OrderPayload(c);
    ShowIntInjective();
    var keys := set id | id in c :: ShowInt(id);
    assert p.Keys == keys;
    ShowImageSize(c.Keys);
  }

  /**
   A cart's quantities are positive, so the quantity column refuses one only
   when it is too large: any listing of the sent items, read back by the
   server, creates its order exactly when every item on the menu is held at
   most `MaxQuantity` times.
   */
  lemma CheckoutQuantitiesAccepted(c: Cart, s: Store, catalog: Catalog, customer: UserId, req: Ledger.Request)
    requires AllPositive(c)
    requires forall i :: 0 <= i < |req| ==> req[i].0 in c && req[i].1 == c[req[i].0]
    ensures Ledger.CreateOrder(s, catalog, customer, req).outcome.Placed? <==>
      forall i :: 0 <= i < |req| && req[i].0 in catalog ==> req[i].1 <= Ledger.MaxQuantity
  {
  }

  /** Adding twice is adding the sum. */
  lemma AddTwiceIsAddSum(c: Cart, id: MenuId, a: int, b: int)
    requires a > 0 && b > 0
    ensures AddToCart(AddToCart(c, id, a).cart, id, b).cart == AddToCart(c, id, a + b).cart
  {
  }

  /** The order of additions does not matter. */
  lemma AddsCommute(c: Cart, x: MenuId, a: int, y: MenuId, b: int)
    ensures AddToCart(AddToCart(c, x, a).cart, y, b).cart == AddToCart(AddToCart(c, y, b).cart, x, a).cart
  {
  }

  /** Typing back the text `str(q)` at the browse prompt is the same as `cart add id q`. */
  lemma BrowseAddMatchesAdd(c: Cart, menu: seq<MenuId>, id: MenuId, q: int)
    requires id in menu
    ensures BrowseAdd(c, menu, id, ShowInt(q)) == Some(AddToCart(c, id, q))
  {
    ParseShow(q);
  }

  datatype CartCommand =
    | Add(id: MenuId, qty: int)
    | Browse(menu: seq<MenuId>, id: MenuId, qtyText: string)
    | Remove(id: MenuId)
    | Clear(confirmed: bool)
    | CheckOut(confirmed: bool, httpStatus: int)

  function Apply(c: Cart, cmd: CartCommand): Cart
  {
    match cmd
    case Add(id, q) => AddToCart(c, id, q).cart
    case Browse(menu, id, t) => (match BrowseAdd(c, menu, id, t) case Some(r) => r.cart case None => c)
    case Remove(id) => RemoveFromCart(c, id).cart
    case Clear(ok) => ClearCart(c, ok).cart
    case CheckOut(ok, st) => CheckoutCart(c, ok, st).cart
  }

  function Session(c: Cart, cmds: seq<CartCommand>): Cart
    decreases |cmds|
  {
    if cmds == [] then c else Session(Apply(c, cmds[0]), cmds[1..])
  }

  /** Every cart the session passes through holds positive quantities only. */
  lemma {:induction false} SessionKeepsPositive(c: Cart, cmds: seq<CartCommand>)
    requires AllPositive(c)
    ensures AllPositive(Session(c, cmds))
    decreases |cmds|
  {
    if cmds != [] {
      var c' := Apply(c, cmds[0]);
      assert AllPositive(c');
      SessionKeepsPositive(c', cmds[1..]);
    }
  }
}

=== FILE: dispatch.dfy ===
/**
 The order endpoints: which orders a caller may address, cancelling, the pool
 of unclaimed jobs, claiming a job, and the two confirmations. A detail
 action first fetches the order through the caller's own query set, so an
 order outside it is answered with NotFound before any guard is looked at.
 A refused call writes nothing.
 */
module Dispatch {
  import opened Domain

  /** The authenticated caller: every user has a profile, hence a role. */
  datatype Caller = Caller(id: UserId, role: Role)

  datatype ApiError =
    | NotAuthorized     // 403: the caller's role is not Driver
    | NotFound          // 404: the order is not in the caller's query set
    | CannotCancel      // 400: the order is not Pending
    | NotYourOrder      // 400: the caller does not own the order
    | JobNotAvailable   // 400: the order is not Pending or already has a driver
    | NotYourJob        // 400: the caller is not the order's driver
    | InvalidValue      // 400: a written field fails its serializer field's validation

  /** A state-changing call either commits a new store or is refused. */
  datatype Outcome = Done(store: Store) | Refused(error: ApiError)

  /** The query result of a read-only call. */
  datatype Listing = Listed(ids: set<OrderId>) | Denied(error: ApiError)

  /** Whether order `id` belongs to the caller's query set. */
  predicate InQueryset(s: Store, u: Caller, id: OrderId)
  {
    id in s.orders &&
    var o := s.orders[id];
    if u.role == Driver then o.driver == Some(u.id) || (o.driver == None && o.status == Pending)
    else o.customer == u.id
  }

  /** A claimable job: Pending and no driver yet. */
  predicate IsJob(o: Order)
  {
    o.status == Pending && o.driver == None
  }

  /**
   OrderViewSet.get_queryset: a driver sees their own deliveries and every
   unclaimed Pending order; anyone else sees the orders they placed.
   */
  function Queryset(s: Store, u: Caller): (ids: set<OrderId>)
    ensures ids <= s.orders.Keys
    ensures u.role == Driver ==>
      ids == (set id | id in s.orders && s.orders[id].driver == Some(u.id)) + (set id | id in s.orders && IsJob(s.orders[id]))
    ensures u.role != Driver ==> ids == set id | id in s.orders && s.orders[id].customer == u.id
  {
    set id | id in s.orders && InQueryset(s, u, id)
  }

  /** `cancel`: a Pending order becomes Cancelled; any other status is refused. */
  function Cancel(s: Store, u: Caller, id: OrderId): (r: Outcome)
    ensures r.Done? <==> id in Queryset(s, u) && s.orders[id].status == Pending
    ensures r.Done? ==> OnlyOrderChanged(s, r.store, id) && r.store.orders[id] == s.orders[id].(status := Cancelled)
    ensures r.Refused? && r.error == NotFound <==> id !in Queryset(s, u)
    ensures r.Refused? ==> r.error == NotFound || r.error == CannotCancel
  {
    if !InQueryset(s, u, id) then Refused(NotFound)
    else if s.orders[id].status == Pending then
      Done(s.(orders := s.orders[id := s.orders[id].(status := Cancelled)]))
    else Refused(CannotCancel)
  }

  /**
   `confirm_receipt`: the owner's confirmation; the order becomes Delivered
   when the driver has already confirmed, otherwise its status is kept.
   */
  function ConfirmReceipt(s: Store, u: Caller, id: OrderId): (r: Outcome)
    ensures r.Done? <==> id in Queryset(s, u) && s.orders[id].customer == u.id
    ensures u.role != Driver ==> (r.Done? <==> id in s.orders && s.orders[id].customer == u.id)
    ensures r.Done? ==>
      && OnlyOrderChanged(s, r.store, id)
      && r.store.orders[id].customerConfirmed
      && r.store.orders[id].driverConfirmed == s.orders[id].driverConfirmed
      && (r.store.orders[id].status == Delivered <==> s.orders[id].driverConfirmed || s.orders[id].status == Delivered)
      && (!s.orders[id].driverConfirmed ==> r.store.orders[id].status == s.orders[id].status)
      && r.store.orders[id].driver == s.orders[id].driver
      && r.store.orders[id].customer == s.orders[id].customer
      && r.store.orders[id].totalCents == s.orders[id].totalCents
    ensures r.Refused? ==> r.error == NotFound || r.error == NotYourOrder
    ensures r.Refused? ==> (r.error == NotFound <==> id !in Queryset(s, u))
  {
    if !InQueryset(s, u, id) then Refused(NotFound)
    else
      var o := s.orders[id];
      if o.customer == u.id then
        var o' := o.(customerConfirmed := true);
        var o'' := if o'.driverConfirmed then o'.(status := Delivered) else o';
        Done(s.(orders := s.orders[id := o'']))
      else Refused(NotYourOrder)
  }

  /** `available_jobs`: drivers only; the unclaimed Pending orders. */
  function AvailableJobs(s: Store, u: Caller): (r: Listing)
    ensures r.Listed? <==> u.role == Driver
    ensures r.Denied? ==> r.error == NotAuthorized
    ensures r.Listed? ==> forall id :: id in r.ids <==> id in s.orders && s.orders[id].status == Pending && s.orders[id].driver == None
  {
    if u.role != Driver then Denied(NotAuthorized)
    else Listed(set id | id in s.orders && IsJob(s.orders[id]))
  }

  /**
   `accept_job`: a driver claims an unclaimed Pending order, which becomes
   Delivering with that driver. The check and the write are one sequential
   step here; the source performs them as a read followed by a save.
   */
  function AcceptJob(s: Store, u: Caller, id: OrderId): (r: Outcome)
    ensures r.Done? <==> u.role == Driver && id in s.orders && s.orders[id].status == Pending && s.orders[id].driver == None
    ensures u.role != Driver ==> r == Refused(NotAuthorized)
    ensures r.Done? ==>
      && OnlyOrderChanged(s, r.store, id)
      && r.store.orders[id] == s.orders[id].(driver := Some(u.id), status := Delivering)
    ensures u.role == Driver && id in Queryset(s, u) && !r.Done? ==> r == Refused(JobNotAvailable)
    ensures u.role == Driver && id !in Queryset(s, u) ==> r == Refused(NotFound)
  {
    if u.role != Driver then Refused(NotAuthorized)
    else if !InQueryset(s, u, id) then Refused(NotFound)
    else
      var o := s.orders[id];
      if o.status == Pending && o.driver == None then
        Done(s.(orders := s.orders[id := o.(driver := Some(u.id), status := Delivering)]))
      else Refused(JobNotAvailable)
  }

  /**
   `complete_job`: the assigned driver's confirmation; the order becomes
   Delivered when the customer has already confirmed, otherwise its status
   is kept.
   */
  function CompleteJob(s: Store, u: Caller, id: OrderId): (r: Outcome)
    ensures r.Done? <==> u.role == Driver && id in s.orders && s.orders[id].driver == Some(u.id)
    ensures u.role != Driver ==> r == Refused(NotAuthorized)
    ensures r.Done? ==>
      && OnlyOrderChanged(s, r.store, id)
      && r.store.orders[id].driverConfirmed
      && r.store.orders[id].customerConfirmed == s.orders[id].customerConfirmed
      && (r.store.orders[id].status == Delivered <==> s.orders[id].customerConfirmed || s.orders[id].status == Delivered)
      && (!s.orders[id].customerConfirmed ==> r.store.orders[id].status == s.orders[id].status)
      && r.store.orders[id].driver == s.orders[id].driver
      && r.store.orders[id].customer == s.orders[id].customer
      && r.store.orders[id].totalCents == s.orders[id].totalCents
    ensures r.Refused? ==> r.error in {NotAuthorized, NotFound, NotYourJob}
    ensures u.role == Driver && r.Refused? ==> (r.error == NotFound <==> id !in Queryset(s, u))
  {
    if u.role != Driver then Refused(NotAuthorized)
    else if !InQueryset(s, u, id) then Refused(NotFound)
    else
      var o := s.orders[id];
      if o.driver == Some(u.id) then
        var o' := o.(driverConfirmed := true);
        var o'' := if o'.customerConfirmed then o'.(status := Delivered) else o';
        Done(s.(orders := s.orders[id := o'']))
      else Refused(NotYourJob)
  }

  /** Every job a driver is shown is one that driver's claim would take. */
  lemma ListedJobsAreClaimable(s: Store, u: Caller, id: OrderId)
    requires AvailableJobs(s, u).Listed?
    ensures id in AvailableJobs(s, u).ids <==> AcceptJob(s, u, id).Done?
    ensures id in AvailableJobs(s, u).ids ==> id in Queryset(s, u)
  {
  }

  /**
   The query set lets a driver address, and cancel, an unclaimed Pending
   order another customer placed.
   */
  lemma DriverCanCancelOthersJob(s: Store, u: Caller, id: OrderId)
    requires u.role == Driver && id in s.orders && IsJob(s.orders[id])
    ensures Cancel(s, u, id).Done?
  {
  }

  /**
   The viewset's generic update (PUT or PATCH): the order serializer writes
   `status` and `total_price` for any order in the caller's query set, with
   no lifecycle guard and whatever the caller's role. The status must be one
   of the four labels and the total must fit the eight-digit column; the
   driver, the confirmations and the line items are read-only.
   */
  function UpdateOrder(s: Store, u: Caller, id: OrderId, status: Option<string>, total: Option<int>): (r: Outcome)
    ensures r.Done? <==>
      && id in Queryset(s, u)
      && (status.Some? ==> ParseStatus(status.value).Some?)
      && (total.Some? ==> FitsDecimal(total.value, TotalDigits))
    ensures r.Refused? ==> r.error == NotFound || r.error == InvalidValue
    ensures r.Refused? && r.error == NotFound <==> id !in Queryset(s, u)
    ensures r.Done? ==>
      && OnlyOrderChanged(s, r.store, id)
      && var o := s.orders[id];
      && var o' := r.store.orders[id];
      && (status.Some? ==> StatusLabel(o'.status) == status.value)
      && (status.None? ==> o'.status == o.status)
      && (total.Some? ==> o'.totalCents == total.value)
      && (total.None? ==> o'.totalCents == o.totalCents)
      && o'.customer == o.customer && o'.driver == o.driver
      && o'.driverConfirmed == o.driverConfirmed && o'.customerConfirmed == o.customerConfirmed
  {
    if !InQueryset(s, u, id) then Refused(NotFound)
    else if status.Some? && ParseStatus(status.value).None? then Refused(InvalidValue)
    else if total.Some? && !FitsDecimal(total.value, TotalDigits) then Refused(InvalidValue)
    else
      var o := s.orders[id];
      var o' := o.(status := if status.Some? then ParseStatus(status.value).value else o.status,
                   totalCents := if total.Some? then total.value else o.totalCents);
      Done(s.(orders := s.orders[id := o']))
  }

  /**
   An update is undone by a second one that writes back the old label and
   total, whenever the caller can still address the order: a customer
   always can, a driver when the order is theirs. The old total must fit the
   column for the second request to be accepted.
   */
  lemma UpdateUndone(s: Store, u: Caller, id: OrderId, status: Option<string>, total: Option<int>)
    requires UpdateOrder(s, u, id, status, total).Done?
    requires u.role != Driver || s.orders[id].driver == Some(u.id)
    requires FitsDecimal(s.orders[id].totalCents, TotalDigits)
    ensures var o := s.orders[id];
      UpdateOrder(UpdateOrder(s, u, id, status, total).store, u, id, Some(StatusLabel(o.status)), Some(o.totalCents))
        == Done(s)
  {
    var o := s.orders[id];
    var s1 := UpdateOrder(s, u, id, status, total).store;
    StatusLabelsDistinct(o.status, o.status);
    assert InQueryset(s1, u, id);
    assert s1.orders[id := o] == s.orders;
  }

  /**
   The viewset's generic destroy (DELETE): any order in the caller's query
   set is deleted with its line items, whatever its status.
   */
  function DestroyOrder(s: Store, u: Caller, id: OrderId): (r: Outcome)
    ensures r.Done? <==> id in Queryset(s, u)
    ensures r.Refused? ==> r.error == NotFound
    ensures r.Done? ==>
      && r.store.orders.Keys == s.orders.Keys - {id}
      && r.store.items.Keys == s.items.Keys - {id}
      && r.store.nextId == s.nextId
      && (forall k :: k in s.orders && k != id ==> r.store.orders[k] == s.orders[k])
      && (forall k :: k in s.items && k != id ==> k in r.store.items && r.store.items[k] == s.items[k])
  {
    if !InQueryset(s, u, id) then Refused(NotFound)
    else Done(DeleteOrder(s, id))
  }
}

=== FILE: domain.dfy ===
/**
 The records of the delivery service: users' roles, menu items, orders and
 their line items, and the order store the lifecycle operations act on.
 Money is held as integer cents (the source's decimal fields carry two
 decimal places).
 */
module Domain {

  type UserId = int
  type OrderId = int
  type MenuId = int

  /** Roles a user profile may carry; a fresh profile is a Customer. */
  datatype Role = Customer | Driver | RestaurantOwner

  const DefaultRole: Role := Customer

  function RoleLabel(r: Role): string
  {
    match r
    case Customer => "Customer"
    case Driver => "Driver"
    case RestaurantOwner => "Restaurant Owner"
  }

  /** The four order statuses; a fresh order is Pending. */
  datatype Status = Pending | Delivering | Delivered | Cancelled

  const DefaultStatus: Status := Pending

  function StatusLabel(s: Status): string
  {
    match s
    case Pending => "Pending"
    case Delivering => "Delivering"
    case Delivered => "Delivered"
    case Cancelled => "Cancelled"
  }

  /** Reads a stored status label back; anything else is not a status. */
  function ParseStatus(text: string): (r: Option<Status>)
    ensures r.Some? ==> StatusLabel(r.value) == text
  {
    if text == "Pending" then Some(Pending)
    else if text == "Delivering" then Some(Delivering)
    else if text == "Delivered" then Some(Delivered)
    else if text == "Cancelled" then Some(Cancelled)
    else None
  }

  datatype Option<+T> = None | Some(value: T)

  /** A price column with two decimal places and at most `digits` digits. */
  predicate FitsDecimal(cents: int, digits: nat)
  {
    -(Pow10(digits) as int) < cents < Pow10(digits)
  }

  function Pow10(n: nat): (r: nat)
    ensures r >= 1
  {
    if n == 0 then 1 else 10 * Pow10(n - 1)
  }

  /** MenuItem.price and OrderItem.price_at_time: six digits. */
  const PriceDigits: nat := 6
  /** Order.total_price: eight digits. */
  const TotalDigits: nat := 8

  /** The catalogue's view of a menu item: its current price and restaurant. */
  datatype MenuItem = MenuItem(price: int, restaurant: int)

  type Catalog = map<MenuId, MenuItem>

  /** A line of an order: the item, how many, and the price frozen at creation. */
  datatype OrderItem = OrderItem(menuItem: MenuId, quantity: int, priceAtTime: int)

  datatype Order = Order(
    customer: UserId,
    driver: Option<UserId>,
    status: Status,
    totalCents: int,
    driverConfirmed: bool,
    customerConfirmed: bool)

  /** The row `Order.objects.create(user=..., total_price=0)` inserts. */
  function NewOrder(customer: UserId): (o: Order)
    ensures o.customer == customer && o.driver == None
    ensures o.status == Pending && o.totalCents == 0
    ensures !o.driverConfirmed && !o.customerConfirmed
  {
    Order(customer, None, DefaultStatus, 0, false, false)
  }

  /**
   The persisted state: orders by id, each order's line items (deleted with
   the order), and the next auto-increment id.
   */
  datatype Store = Store(orders: map<OrderId, Order>, items: map<OrderId, seq<OrderItem>>, nextId: OrderId)

  const EmptyStore: Store := Store(map[], map[], 1)

  /** Auto-increment ids: every stored id lies below the next one. */
  predicate IdsBelowNext(s: Store)
  {
    forall id :: id in s.orders ==> id < s.nextId
  }

  /** Every id but `id` keeps its order, and no line item changes. */
  predicate OnlyOrderChanged(s: Store, s': Store, id: OrderId)
  {
    && s'.orders.Keys == s.orders.Keys
    && s'.items == s.items
    && s'.nextId == s.nextId
    && forall k :: k in s.orders && k != id ==> s'.orders[k] == s.orders[k]
  }

  /** Deleting an order deletes its line items with it (on_delete=CASCADE). */
  function DeleteOrder(s: Store, id: OrderId): (s': Store)
    ensures id !in s'.orders && id !in s'.items
    ensures forall k :: k in s.orders && k != id ==> k in s'.orders && s'.orders[k] == s.orders[k]
    ensures forall k :: k in s.items && k != id ==> k in s'.items && s'.items[k] == s.items[k]
    ensures s'.orders.Keys == s.orders.Keys - {id}
    ensures s'.items.Keys == s.items.Keys - {id}
    ensures s'.nextId == s.nextId
  {
    Store(s.orders - {id}, s.items - {id}, s.nextId)
  }

  lemma StatusLabelsDistinct(a: Status, b: Status)
    ensures StatusLabel(a) == StatusLabel(b) ==> a == b
    ensures ParseStatus(StatusLabel(a)) == Some(a)
  {
  }
}

=== FILE: ledger.dfy ===
/**
 Order creation: the order row is inserted first with a zero total, then each
 requested menu id is looked up in the catalogue; a resolvable id yields a line
 item whose price is a copy of the item's current price and adds
 price * quantity to the total; an id the catalogue does not hold is skipped.
 */
module Ledger {
  import opened Domain

  /** The request body's `items` object, in the order its keys arrived. */
  type Request = seq<(MenuId, int)>

  /** A JSON object parsed into a dict has each key once. */
  predicate DistinctKeys(req: Request)
  {
    forall i, j :: 0 <= i < j < |req| ==> req[i].0 != req[j].0
  }

  /** The line item a request entry yields, if its id resolves. */
  function LineFor(catalog: Catalog, entry: (MenuId, int)): Option<OrderItem>
  {
    if entry.0 in catalog then Some(OrderItem(entry.0, entry.1, catalog[entry.0].price)) else None
  }

  /** The line items created for `req`, in request order, skipping unknown ids. */
  function Lines(catalog: Catalog, req: Request): (lines: seq<OrderItem>)
    ensures |lines| <= |req|
  {
    if req == [] then []
    else
      match LineFor(catalog, req[0])
      case Some(line) => [line] + Lines(catalog, req[1..])
      case None => Lines(catalog, req[1..])
  }

  /** An order's total read off its line items: the sum of quantity * price_at_time. */
  function LinesTotal(lines: seq<OrderItem>): int
  {
    if lines == [] then 0 else lines[0].quantity * lines[0].priceAtTime + LinesTotal(lines[1..])
  }

  /** The same total read off the request: each resolvable entry's price times quantity. */
  function RequestTotal(catalog: Catalog, req: Request): int
  {
    if req == [] then 0
    else (if req[0].0 in catalog then catalog[req[0].0].price * req[0].1 else 0) + RequestTotal(catalog, req[1..])
  }

  /** The request's ids that the catalogue resolves. */
  function ResolvableKeys(catalog: Catalog, req: Request): set<MenuId>
  {
    set i | 0 <= i < |req| && req[i].0 in catalog :: req[i].0
  }

  /**
   The largest value of the quantity column. A PositiveIntegerField is a
   32-bit `integer` column on PostgreSQL, with a check that it is not
   negative.
   */
  const MaxQuantity := 2147483647

  /** Whether the quantity column stores `q`: not negative and within 32 bits. */
  predicate QuantityFits(q: int)
  {
    0 <= q <= MaxQuantity
  }

  /**
   A request entry whose OrderItem insert fails: its id resolves and its
   quantity does not fit the column (the check constraint refuses a negative
   one, the column type an oversized one).
   */
  predicate Refused(catalog: Catalog, entry: (MenuId, int))
  {
    entry.0 in catalog && !QuantityFits(entry.1)
  }

  /** The index of the first refused entry, or |req|. */
  function FirstRejected(catalog: Catalog, req: Request): (k: nat)
    ensures k <= |req|
    ensures forall i :: 0 <= i < k ==> !Refused(catalog, req[i])
    ensures k < |req| ==> Refused(catalog, req[k])
  {
    if req == [] then 0
    else if Refused(catalog, req[0]) then 0
    else 1 + FirstRejected(catalog, req[1..])
  }

  datatype CreateError = QuantityRejected(menuItem: MenuId)

  datatype Created = Created(store: Store, outcome: CreateResult)
  datatype CreateResult = Placed(id: OrderId) | Failed(error: CreateError)

  /**
   CreateOrderSerializer.create. On success the new order carries the id
   `s.nextId`, the caller as owner, the request's total and its line items.
   When an insert fails part way, the exception escapes the serializer after
   the order row and the earlier line items were written, so the store keeps
   an order with total 0.
   */
  function CreateOrder(s: Store, catalog: Catalog, customer: UserId, req: Request): (c: Created)
    ensures c.store.nextId == s.nextId + 1
    ensures s.nextId in c.store.orders && s.nextId in c.store.items
    ensures c.store.orders == s.orders[s.nextId := c.store.orders[s.nextId]]
    ensures c.store.items == s.items[s.nextId := c.store.items[s.nextId]]
    ensures c.outcome.Placed? <==> forall i :: 0 <= i < |req| ==> !Refused(catalog, req[i])
    ensures c.outcome.Placed? ==> c.outcome.id == s.nextId
  {
    var k := FirstRejected(catalog, req);
    var order := NewOrder(customer);
    if k == |req| then
      var lines := Lines(catalog, req);
      Created(Store(s.orders[s.nextId := order.(totalCents := LinesTotal(lines))],
                    s.items[s.nextId := lines], s.nextId + 1),
              Placed(s.nextId))
    else
      Created(Store(s.orders[s.nextId := order], s.items[s.nextId := Lines(catalog, req[..k])], s.nextId + 1),
              Failed(QuantityRejected(req[k].0)))
  }

  /**
   The loop of CreateOrderSerializer.create, step by step: line items are
   appended and the running total grows as each entry is visited.
   */
  method PlaceOrder(s: Store, catalog: Catalog, customer: UserId, req: Request) returns (s': Store, outcome: CreateResult)
    ensures Created(s', outcome) == CreateOrder(s, catalog, customer, req)
  {
    var id := s.nextId;
    var lines: seq<OrderItem> := [];
    var total := 0;
    var i := 0;
    while i < |req|
      invariant 0 <= i <= |req|
      invariant i <= FirstRejected(catalog, req)
      invariant lines == Lines(catalog, req[..i])
      invariant total == RequestTotal(catalog, req[..i])
    {
      var (menuId, quantity) := req[i];
      if menuId in catalog {
        if !QuantityFits(quantity) {
          assert FirstRejected(catalog, req) == i by {
            FirstRejectedAt(catalog, req, i);
          }
          s' := Store(s.orders[id := NewOrder(customer)], s.items[id := lines], id + 1);
          outcome := Failed(QuantityRejected(menuId));
          return;
        }
        lines := lines + [OrderItem(menuId, quantity, catalog[menuId].price)];
        total := total + catalog[menuId].price * quantity;
      }
      LinesSnoc(catalog, req[..i], req[i]);
      RequestTotalSnoc(catalog, req[..i], req[i]);
      assert req[..i + 1] == req[..i] + [req[i]];
      i := i + 1;
    }
    assert req[..i] == req;
    LinesTotalIsRequestTotal(catalog, req);
    FirstRejectedAt(catalog, req, i);
    s' := Store(s.orders[id := NewOrder(customer).(totalCents := total)], s.items[id := lines], id + 1);
    outcome := Placed(id);
  }

  /**
   A quantity one past the 32-bit column is refused like a negative one: the
   order row is written with total 0 and no line item.
   */
  lemma OversizedQuantityRejected()
    ensures var c := CreateOrder(EmptyStore, map[1 := MenuItem(0, 1)], 7, [(1, MaxQuantity + 1)]);
      && c.outcome == Failed(QuantityRejected(1))
      && c.store.orders[1].totalCents == 0 && c.store.items[1] == []
  {
    var req: Request := [(1, MaxQuantity + 1)];
    FirstRejectedAt(map[1 := MenuItem(0, 1)], req, 0);
  }

  lemma {:induction false} FirstRejectedAt(catalog: Catalog, req: Request, k: nat)
    requires k <= |req|
    requires forall i :: 0 <= i < k ==> !Refused(catalog, req[i])
    requires k < |req| ==> Refused(catalog, req[k])
    ensures FirstRejected(catalog, req) == k
  {
    if req != [] && k > 0 {
      FirstRejectedAt(catalog, req[1..], k - 1);
    }
  }

  lemma {:induction false} LinesSnoc(catalog: Catalog, req: Request, entry: (MenuId, int))
    ensures Lines(catalog, req + [entry]) == Lines(catalog, req) + (match LineFor(catalog, entry) case Some(l) => [l] case None => [])
  {
    if req != [] {
      assert (req + [entry])[1..] == req[1..] + [entry];
      LinesSnoc(catalog, req[1..], entry);
    } else {
      assert [entry][1..] == [];
    }
  }

  lemma {:induction false} RequestTotalSnoc(catalog: Catalog, req: Request, entry: (MenuId, int))
    ensures RequestTotal(catalog, req + [entry])
         == RequestTotal(catalog, req) + (if entry.0 in catalog then catalog[entry.0].price * entry.1 else 0)
  {
    if req != [] {
      assert (req + [entry])[1..] == req[1..] + [entry];
      RequestTotalSnoc(catalog, req[1..], entry);
    } else {
      assert [entry][1..] == [];
    }
  }

  /** The total written to the order is the sum over its own line items. */
  lemma {:induction false} LinesTotalIsRequestTotal(catalog: Catalog, req: Request)
    ensures LinesTotal(Lines(catalog, req)) == RequestTotal(catalog, req)
  {
    if req != [] {
      LinesTotalIsRequestTotal(catalog, req[1..]);
      match LineFor(catalog, req[0])
      case Some(line) =>
        assert ([line] + Lines(catalog, req[1..]))[1..] == Lines(catalog, req[1..]);
      case None =>
    }
  }

  /**
   Price snapshot: every line item names a resolvable id of the request, with
   the requested quantity and the catalogue price at creation.
   */
  lemma {:induction false} LinesAreSnapshots(catalog: Catalog, req: Request)
    ensures forall line :: line in Lines(catalog, req) ==>
      && line.menuItem in catalog
      && line.priceAtTime == catalog[line.menuItem].price
      && (line.menuItem, line.quantity) in req
  {
    if req != [] {
      LinesAreSnapshots(catalog, req[1..]);
      forall line | line in Lines(catalog, req)
        ensures line.menuItem in catalog && line.priceAtTime == catalog[line.menuItem].price
        ensures (line.menuItem, line.quantity) in req
      {
        if line !in Lines(catalog, req[1..]) {
          assert line == OrderItem(req[0].0, req[0].1, catalog[req[0].0].price);
          assert req[0] == (line.menuItem, line.quantity);
        } else {
          assert (line.menuItem, line.quantity) in req[1..];
        }
      }
    }
  }

  /** Conversely every resolvable entry of the request has its line item. */
  lemma {:induction false} ResolvableEntriesHaveLines(catalog: Catalog, req: Request)
    ensures forall i :: 0 <= i < |req| && req[i].0 in catalog ==>
      OrderItem(req[i].0, req[i].1, catalog[req[i].0].price) in Lines(catalog, req)
  {
    if req != [] {
      ResolvableEntriesHaveLines(catalog, req[1..]);
      forall i | 0 <= i < |req| && req[i].0 in catalog
        ensures OrderItem(req[i].0, req[i].1, catalog[req[i].0].price) in Lines(catalog, req)
      {
        if i > 0 {
          assert req[i] == req[1..][i - 1];
        }
      }
    }
  }

  /** The positions of the request entries whose id the catalogue resolves. */
  function ResolvableEntries(catalog: Catalog, req: Request): set<nat>
  {
    set i: nat | i < |req| && req[i].0 in catalog
  }

  /** One line item per resolvable entry, whether or not two keys name the same id. */
  lemma {:induction false} LineCountIsResolvableEntries(catalog: Catalog, req: Request)
    ensures |Lines(catalog, req)| == |ResolvableEntries(catalog, req)|
    decreases |req|
  {
    if req != [] {
      var init := req[..|req| - 1];
      var last := req[|req| - 1];
      assert req == init + [last];
      LinesSnoc(catalog, init, last);
      LineCountIsResolvableEntries(catalog, init);
      var before := ResolvableEntries(catalog, init);
      var added: set<nat> := if last.0 in catalog then {|init|} else {};
      assert ResolvableEntries(catalog, req) == before + added by {
        forall i: nat ensures i in ResolvableEntries(catalog, req) <==> i in before + added {
          if i < |init| {
            assert req[i] == init[i];
          }
        }
      }
      assert |init| !in before;
    }
  }

  /** One line item per distinct resolvable key of the request. */
  lemma {:induction false} LineCountIsResolvableKeys(catalog: Catalog, req: Request)
    requires DistinctKeys(req)
    ensures |Lines(catalog, req)| == |ResolvableKeys(catalog, req)|
  {
    if req != [] {
      var rest := req[1..];
      assert DistinctKeys(rest) by {
        forall i, j | 0 <= i < j < |rest| ensures rest[i].0 != rest[j].0 {
          assert rest[i] == req[i + 1] && rest[j] == req[j + 1];
        }
      }
      LineCountIsResolvableKeys(catalog, rest);
      var tail := ResolvableKeys(catalog, rest);
      forall i | 0 <= i < |rest| ensures rest[i].0 != req[0].0 {
        assert rest[i] == req[i + 1];
      }
      assert req[0].0 !in tail;
      if req[0].0 in catalog {
        assert ResolvableKeys(catalog, req) == {req[0].0} + tail by {
          forall k ensures k in ResolvableKeys(catalog, req) <==> k in {req[0].0} + tail {
            if k in ResolvableKeys(catalog, req) && k != req[0].0 {
              var i :| 0 <= i < |req| && req[i].0 in catalog && req[i].0 == k;
              assert rest[i - 1] == req[i];
            }
            if k in tail {
              var i :| 0 <= i < |rest| && rest[i].0 in catalog && rest[i].0 == k;
              assert req[i + 1] == rest[i];
            }
          }
        }
      } else {
        assert ResolvableKeys(catalog, req) == tail by {
          forall k ensures k in ResolvableKeys(catalog, req) <==> k in tail {
            if k in ResolvableKeys(catalog, req) {
              var i :| 0 <= i < |req| && req[i].0 in catalog && req[i].0 == k;
              assert i != 0;
              assert rest[i - 1] == req[i];
            }
            if k in tail {
              var i :| 0 <= i < |rest| && rest[i].0 in catalog && rest[i].0 == k;
              assert req[i + 1] == rest[i];
            }
          }
        }
      }
    } else {
      assert ResolvableKeys(catalog, req) == {};
    }
  }

  /**
   A successful creation stores a fresh Pending order owned by the caller,
   with no driver and no confirmations, whose total is the sum over the
   resolvable entries and equals the sum over its own line items.
   */
  lemma CreatedOrderShape(s: Store, catalog: Catalog, customer: UserId, req: Request)
    requires IdsBelowNext(s)
    requires CreateOrder(s, catalog, customer, req).outcome.Placed?
    ensures var c := CreateOrder(s, catalog, customer, req);
      && s.nextId !in s.orders
      && c.store.orders.Keys == s.orders.Keys + {s.nextId}
      && c.store.orders[s.nextId] == Order(customer, None, Pending, RequestTotal(catalog, req), false, false)
      && c.store.items[s.nextId] == Lines(catalog, req)
      && LinesTotal(c.store.items[s.nextId]) == c.store.orders[s.nextId].totalCents
  {
    LinesTotalIsRequestTotal(catalog, req);
  }

  /** Unknown ids cost nothing and stop nothing: an unresolvable entry changes neither lines nor total. */
  lemma UnknownIdsSkipped(s: Store, catalog: Catalog, customer: UserId, req: Request, id: MenuId, qty: int)
    requires id !in catalog
    ensures CreateOrder(s, catalog, customer, req + [(id, qty)]) == CreateOrder(s, catalog, customer, req)
  {
    LinesSnoc(catalog, req, (id, qty));
    var k := FirstRejected(catalog, req);
    var req' := req + [(id, qty)];
    if k < |req| {
      FirstRejectedAt(catalog, req', k);
      assert req'[..k] == req[..k];
    } else {
      FirstRejectedAt(catalog, req', |req'|);
      assert Lines(catalog, req') == Lines(catalog, req) + [] == Lines(catalog, req);
    }
  }

  /** An empty items object still creates an order: total 0, no line items. */
  lemma EmptyRequestCreatesEmptyOrder(s: Store, catalog: Catalog, customer: UserId)
    ensures var c := CreateOrder(s, catalog, customer, []);
      && c.outcome == Placed(s.nextId)
      && c.store.orders[s.nextId].totalCents == 0
      && c.store.items[s.nextId] == []
  {
  }

  /**
   The total fits Order.total_price (eight digits) whenever prices fit
   MenuItem.price, are not negative, and at most 100 units are ordered.
   */
  lemma {:induction false} TotalFitsColumn(catalog: Catalog, req: Request)
    requires forall id :: id in catalog ==> 0 <= catalog[id].price && FitsDecimal(catalog[id].price, PriceDigits)
    requires forall i :: 0 <= i < |req| ==> req[i].1 >= 0
    requires QuantitySum(req) <= 100
    ensures 0 <= RequestTotal(catalog, req) <= QuantitySum(req) * (Pow10(PriceDigits) - 1)
    ensures FitsDecimal(RequestTotal(catalog, req), TotalDigits)
  {
    var bound := Pow10(PriceDigits) - 1;
    assert bound == 999999;
    assert Pow10(TotalDigits) == 100000000;
    if req != [] {
      assert forall i :: 0 <= i < |req[1..]| ==> req[1..][i] == req[i + 1];
      TotalFitsColumn(catalog, req[1..]);
      if req[0].0 in catalog {
        var p := catalog[req[0].0].price;
        assert p <= bound;
        MulMono(p, bound, req[0].1);
      }
    }
  }

  lemma MulMono(a: int, b: int, q: int)
    requires 0 <= a <= b && q >= 0
    ensures 0 <= a * q <= b * q
  {
  }

  function QuantitySum(req: Request): int
  {
    if req == [] then 0 else req[0].1 + QuantitySum(req[1..])
  }
}

=== FILE: lifecycle.dfy ===
/**
 Sequences of calls against the order store. Each call either commits its new
 store or is refused and leaves the store as it was; the invariants below hold
 in every store reachable from the empty one through these calls. The
 viewset's generic update and destroy are not among them: a delete keeps the
 invariants (`DestroyKeepsInv`) but removes the order, and an update writes
 any status and total and breaks them (`UpdateBreaksInv`).
 */
module Lifecycle {
  import opened Domain
  import opened Ledger
  import opened Dispatch

  datatype Action =
    | Place(customer: UserId, catalog: Catalog, req: Request)
    | CancelOrder(caller: Caller, id: OrderId)
    | Accept(caller: Caller, id: OrderId)
    | Complete(caller: Caller, id: OrderId)
    | Confirm(caller: Caller, id: OrderId)

  function Commit(s: Store, r: Outcome): Store
  {
    match r
    case Done(s') => s'
    case Refused(_) => s
  }

  /** The store after one call. */
  function Step(s: Store, a: Action): Store
  {
    match a
    case Place(c, catalog, req) => CreateOrder(s, catalog, c, req).store
    case CancelOrder(u, id) => Commit(s, Cancel(s, u, id))
    case Accept(u, id) => Commit(s, AcceptJob(s, u, id))
    case Complete(u, id) => Commit(s, CompleteJob(s, u, id))
    case Confirm(u, id) => Commit(s, ConfirmReceipt(s, u, id))
  }

  function Run(s: Store, acts: seq<Action>): Store
    decreases |acts|
  {
    if acts == [] then s else Run(Step(s, acts[0]), acts[1..])
  }

  /**
   What every reachable order satisfies: Delivered exactly when both parties
   have confirmed; a driver confirmation only with a driver assigned; a
   driver assigned exactly in Delivering and Delivered.
   */
  predicate OrderInv(o: Order)
  {
    && (o.status == Delivered <==> o.driverConfirmed && o.customerConfirmed)
    && (o.driverConfirmed ==> o.driver.Some?)
    && (o.driver.None? <==> o.status == Pending || o.status == Cancelled)
  }

  predicate Inv(s: Store)
  {
    && IdsBelowNext(s)
    && s.items.Keys == s.orders.Keys
    && forall id :: id in s.orders ==> OrderInv(s.orders[id])
  }

  lemma EmptyStoreInv()
    ensures Inv(EmptyStore)
  {
  }

  lemma StepPreservesInv(s: Store, a: Action)
    requires Inv(s)
    ensures Inv(Step(s, a))
  {
    match a
    case Place(c, catalog, req) =>
      var k := FirstRejected(catalog, req);
      assert OrderInv(NewOrder(c));
    case CancelOrder(u, id) =>
    case Accept(u, id) =>
    case Complete(u, id) =>
    case Confirm(u, id) =>
  }

  lemma {:induction false} RunPreservesInv(s: Store, acts: seq<Action>)
    requires Inv(s)
    ensures Inv(Run(s, acts))
    decreases |acts|
  {
    if acts != [] {
      StepPreservesInv(s, acts[0]);
      RunPreservesInv(Step(s, acts[0]), acts[1..]);
    }
  }

  /** Deleting an order, with its line items, keeps the invariants. */
  lemma DeleteKeepsInv(s: Store, id: OrderId)
    requires Inv(s)
    ensures Inv(DeleteOrder(s, id))
  {
  }

  /** The generic destroy, committed or refused, keeps the invariants. */
  lemma DestroyKeepsInv(s: Store, u: Caller, id: OrderId)
    requires Inv(s)
    ensures Inv(Commit(s, DestroyOrder(s, u, id)))
  {
    if DestroyOrder(s, u, id).Done? {
      DeleteKeepsInv(s, id);
    }
  }

  /** In every reachable store a Delivered order has both confirmations and a driver. */
  lemma DeliveredIsConfirmed(acts: seq<Action>, id: OrderId)
    ensures var s := Run(EmptyStore, acts);
      id in s.orders && s.orders[id].status == Delivered ==>
        s.orders[id].driverConfirmed && s.orders[id].customerConfirmed && s.orders[id].driver.Some?
  {
    EmptyStoreInv();
    RunPreservesInv(EmptyStore, acts);
  }

  /** The status moves along the transition table only. */
  predicate LegalMove(from: Status, to: Status)
  {
    from == to
    || (from == Pending && (to == Delivering || to == Cancelled))
    || (from == Delivering && to == Delivered)
  }

  lemma StepFollowsTable(s: Store, a: Action, id: OrderId)
    requires Inv(s) && id in s.orders
    ensures id in Step(s, a).orders
    ensures LegalMove(s.orders[id].status, Step(s, a).orders[id].status)
  {
    match a
    case Place(c, catalog, req) =>
      assert id != s.nextId;
    case CancelOrder(u, id') =>
    case Accept(u, id') =>
    case Complete(u, id') =>
    case Confirm(u, id') =>
  }

  /** No call moves an order out of Delivered (or out of Cancelled). */
  lemma {:induction false} TerminalStatesStay(s: Store, acts: seq<Action>, id: OrderId)
    requires Inv(s) && id in s.orders
    requires s.orders[id].status == Delivered || s.orders[id].status == Cancelled
    ensures id in Run(s, acts).orders && Run(s, acts).orders[id].status == s.orders[id].status
    decreases |acts|
  {
    if acts != [] {
      StepFollowsTable(s, acts[0], id);
      StepPreservesInv(s, acts[0]);
      TerminalStatesStay(Step(s, acts[0]), acts[1..], id);
    }
  }

  /** Once assigned, the driver of an order never changes. */
  lemma DriverStaysAfterStep(s: Store, a: Action, id: OrderId, d: UserId)
    requires Inv(s) && id in s.orders && s.orders[id].driver == Some(d)
    ensures id in Step(s, a).orders && Step(s, a).orders[id].driver == Some(d)
  {
    match a
    case Place(c, catalog, req) =>
      assert id != s.nextId;
    case CancelOrder(u, id') =>
    case Accept(u, id') =>
    case Complete(u, id') =>
    case Confirm(u, id') =>
  }

  lemma {:induction false} DriverStays(s: Store, acts: seq<Action>, id: OrderId, d: UserId)
    requires Inv(s) && id in s.orders && s.orders[id].driver == Some(d)
    ensures id in Run(s, acts).orders && Run(s, acts).orders[id].driver == Some(d)
    decreases |acts|
  {
    if acts != [] {
      DriverStaysAfterStep(s, acts[0], id, d);
      StepPreservesInv(s, acts[0]);
      DriverStays(Step(s, acts[0]), acts[1..], id, d);
    }
  }

  /**
   Sequential exclusivity of the claim: after one driver's claim succeeds,
   whatever calls follow, that driver stays assigned and every later claim
   of the order, by anyone, is refused.
   */
  lemma ClaimIsExclusive(s: Store, d1: Caller, id: OrderId, later: seq<Action>, d2: Caller)
    requires Inv(s)
    requires AcceptJob(s, d1, id).Done?
    ensures var s' := Run(AcceptJob(s, d1, id).store, later);
      && id in s'.orders && s'.orders[id].driver == Some(d1.id)
      && AcceptJob(s', d2, id).Refused?
  {
    var s1 := AcceptJob(s, d1, id).store;
    assert Step(s, Accept(d1, id)) == s1;
    StepPreservesInv(s, Accept(d1, id));
    DriverStays(s1, later, id, d1.id);
  }

  /**
   The two confirmations commute: driver-then-customer and customer-then-driver
   give the same store, with the order Delivered and both flags set.
   */
  lemma ConfirmationsCommute(s: Store, d: Caller, c: Caller, id: OrderId)
    requires Inv(s) && id in s.orders
    requires d.role == Driver && s.orders[id].driver == Some(d.id)
    requires c.role != Driver && s.orders[id].customer == c.id
    ensures var s1 := Run(s, [Complete(d, id), Confirm(c, id)]);
      var s2 := Run(s, [Confirm(c, id), Complete(d, id)]);
      && s1 == s2
      && id in s1.orders
      && s1.orders[id].status == Delivered
      && s1.orders[id].driverConfirmed && s1.orders[id].customerConfirmed
      && s1.orders[id] == s.orders[id].(driverConfirmed := true, customerConfirmed := true, status := Delivered)
      && OnlyOrderChanged(s, s1, id)
  {
    var done := s.orders[id].(driverConfirmed := true, customerConfirmed := true, status := Delivered);
    RunPair(s, Complete(d, id), Confirm(c, id));
    RunPair(s, Confirm(c, id), Complete(d, id));
    CompleteThenConfirm(s, d, c, id);
    ConfirmThenComplete(s, d, c, id);
    assert s.orders[id := done][id] == done;
  }

  lemma CompleteThenConfirm(s: Store, d: Caller, c: Caller, id: OrderId)
    requires id in s.orders
    requires d.role == Driver && s.orders[id].driver == Some(d.id)
    requires c.role != Driver && s.orders[id].customer == c.id
    ensures Step(Step(s, Complete(d, id)), Confirm(c, id)) ==
      s.(orders := s.orders[id := s.orders[id].(driverConfirmed := true, customerConfirmed := true, status := Delivered)])
  {
    var o := s.orders[id];
    var oa := o.(driverConfirmed := true, status := if o.customerConfirmed then Delivered else o.status);
    assert InQueryset(s, d, id);
    var a := s.(orders := s.orders[id := oa]);
    assert Step(s, Complete(d, id)) == a;
    assert a.orders[id] == oa;
    assert InQueryset(a, c, id);
    assert a.orders[id := oa.(customerConfirmed := true, status := Delivered)] ==
      s.orders[id := o.(driverConfirmed := true, customerConfirmed := true, status := Delivered)];
  }

  lemma ConfirmThenComplete(s: Store, d: Caller, c: Caller, id: OrderId)
    requires id in s.orders
    requires d.role == Driver && s.orders[id].driver == Some(d.id)
    requires c.role != Driver && s.orders[id].customer == c.id
    ensures Step(Step(s, Confirm(c, id)), Complete(d, id)) ==
      s.(orders := s.orders[id := s.orders[id].(driverConfirmed := true, customerConfirmed := true, status := Delivered)])
  {
    var o := s.orders[id];
    var ob := o.(customerConfirmed := true, status := if o.driverConfirmed then Delivered else o.status);
    assert InQueryset(s, c, id);
    var b := s.(orders := s.orders[id := ob]);
    assert Step(s, Confirm(c, id)) == b;
    assert b.orders[id] == ob;
    assert InQueryset(b, d, id);
    assert b.orders[id := ob.(driverConfirmed := true, status := Delivered)] ==
      s.orders[id := o.(driverConfirmed := true, customerConfirmed := true, status := Delivered)];
  }

  lemma RunPair(s: Store, x: Action, y: Action)
    ensures Run(s, [x, y]) == Step(Step(s, x), y)
  {
    assert [x, y][1..] == [y];
    assert [y][1..] == [];
    assert Run(s, [x, y]) == Run(Step(s, x), [y]);
    assert Run(Step(s, x), [y]) == Run(Step(Step(s, x), y), []);
  }

  /** Repeating a customer's confirmation changes nothing more. */
  lemma ConfirmReceiptIdempotent(s: Store, c: Caller, id: OrderId)
    requires Inv(s)
    requires ConfirmReceipt(s, c, id).Done?
    ensures ConfirmReceipt(ConfirmReceipt(s, c, id).store, c, id) == ConfirmReceipt(s, c, id)
  {
    var s1 := ConfirmReceipt(s, c, id).store;
    assert s1.orders[id := s1.orders[id]] == s1.orders;
  }

  /** Repeating a driver's confirmation changes nothing more. */
  lemma CompleteJobIdempotent(s: Store, d: Caller, id: OrderId)
    requires CompleteJob(s, d, id).Done?
    ensures CompleteJob(CompleteJob(s, d, id).store, d, id) == CompleteJob(s, d, id)
  {
    var s1 := CompleteJob(s, d, id).store;
    assert s1.orders[id := s1.orders[id]] == s1.orders;
  }

  /** Price snapshots are frozen: no later call rewrites an order's line items. */
  lemma {:induction false} SnapshotsFrozen(s: Store, acts: seq<Action>, id: OrderId)
    requires Inv(s) && id in s.items
    ensures id in Run(s, acts).items && Run(s, acts).items[id] == s.items[id]
    decreases |acts|
  {
    if acts != [] {
      var a := acts[0];
      assert Step(s, a).items[id] == s.items[id] by {
        if a.Place? {
          assert id != s.nextId;
        }
      }
      StepPreservesInv(s, a);
      SnapshotsFrozen(Step(s, a), acts[1..], id);
    }
  }

  /** Every order's total agrees with its own line items. */
  predicate PricedConsistently(s: Store)
  {
    forall id :: id in s.orders && id in s.items ==> s.orders[id].totalCents == LinesTotal(s.items[id])
  }

  /** Whether the call is an order creation that the quantity column rejects. */
  predicate RejectedPlace(s: Store, a: Action)
  {
    a.Place? && CreateOrder(s, a.catalog, a.customer, a.req).outcome.Failed?
  }

  lemma StepKeepsPricing(s: Store, a: Action)
    requires Inv(s) && PricedConsistently(s)
    requires !RejectedPlace(s, a)
    ensures PricedConsistently(Step(s, a))
  {
    if a.Place? {
      CreatedOrderShape(s, a.catalog, a.customer, a.req);
    }
  }

  /**
   A rejected quantity after a priced line leaves an order whose stored
   total (0) differs from the sum over the line items written before the
   failure.
   */
  lemma RejectedPlaceLeavesPartialOrder()
    ensures var catalog := map[1 := MenuItem(500, 1), 2 := MenuItem(300, 1)];
      var c := CreateOrder(EmptyStore, catalog, 7, [(1, 2), (2, -1)]);
      && c.outcome == Failed(QuantityRejected(2))
      && 1 in c.store.orders && c.store.orders[1].totalCents == 0
      && c.store.items[1] == [OrderItem(1, 2, 500)]
      && !PricedConsistently(c.store)
  {
    var catalog := map[1 := MenuItem(500, 1), 2 := MenuItem(300, 1)];
    var req: Request := [(1, 2), (2, -1)];
    FirstRejectedAt(catalog, req, 1);
    assert req[..1] == [(1, 2)];
    assert [(1, 2)][1..] == [];
    var c := CreateOrder(EmptyStore, catalog, 7, req);
    assert LinesTotal(c.store.items[1]) == 1000;
  }

  /**
   The generic update answers a customer's request to mark their own
   unclaimed Pending order Delivered: the result has no driver and no
   confirmation, so it breaks the invariants every modelled call keeps.
   */
  lemma UpdateBreaksInv()
    ensures var o := NewOrder(7);
      var s := Store(map[1 := o], map[1 := []], 2);
      var r := UpdateOrder(s, Caller(7, Customer), 1, Some("Delivered"), None);
      && Inv(s)
      && r.Done?
      && r.store.orders[1].status == Delivered
      && !Inv(r.store)
  {
    var o := NewOrder(7);
    var s := Store(map[1 := o], map[1 := []], 2);
    assert InQueryset(s, Caller(7, Customer), 1);
    var r := UpdateOrder(s, Caller(7, Customer), 1, Some("Delivered"), None);
    assert !OrderInv(r.store.orders[1]);
  }

  /**
   A committed update keeps the invariants exactly when the status it leaves
   agrees with the order's driver and confirmations; the total never matters.
   */
  lemma UpdateKeepsInvIff(s: Store, u: Caller, id: OrderId, status: Option<string>, total: Option<int>)
    requires Inv(s)
    requires UpdateOrder(s, u, id, status, total).Done?
    ensures var o := s.orders[id];
      var st := if status.Some? then ParseStatus(status.value).value else o.status;
      Inv(UpdateOrder(s, u, id, status, total).store) <==>
        && (st == Delivered <==> o.driverConfirmed && o.customerConfirmed)
        && (o.driver.None? <==> st == Pending || st == Cancelled)
  {
    var o := s.orders[id];
    var s1 := UpdateOrder(s, u, id, status, total).store;
    var o1 := s1.orders[id];
    assert o1.driver == o.driver && o1.driverConfirmed == o.driverConfirmed && o1.customerConfirmed == o.customerConfirmed;
    if OrderInv(o1) {
      forall k | k in s1.orders ensures OrderInv(s1.orders[k]) {
        if k != id {
          assert s1.orders[k] == s.orders[k];
        }
      }
    }
  }
}

=== FILE: numerals.dfy ===
/**
 Decimal text for integers: Python's `str(n)` and `int(text)` on ASCII
 input. `int` accepts surrounding whitespace, an optional sign and one or more
 digits (leading zeros included).
 */
module Numerals {
  import opened Domain
  import opened Validators

  function DigitChar(d: nat): char
    requires d < 10
  {
    "0123456789"[d]
  }

  function DigitValue(c: char): nat
    requires IsDigit(c)
  {
    (c as int - '0' as int) as nat
  }

  /** `str(n)` for n >= 0: no leading zeros, "0" for zero. */
  function ShowNat(n: nat): (t: string)
    ensures |t| >= 1 && forall i :: 0 <= i < |t| ==> IsDigit(t[i])
    ensures t[0] == '0' <==> n == 0
    ensures n == 0 ==> t == "0"
  {
    if n < 10 then [DigitChar(n)] else ShowNat(n / 10) + [DigitChar(n % 10)]
  }

  /** `str(n)`: a minus sign exactly for a negative number, then digits with no leading zero. */
  function ShowInt(n: int): (t: string)
    ensures |t| >= 1 && !IsSpace(t[0]) && !IsSpace(t[|t| - 1])
    ensures t[0] == '-' <==> n < 0
    ensures n < 0 ==> |t| >= 2 && t[1] != '0' && forall i :: 1 <= i < |t| ==> IsDigit(t[i])
    ensures n >= 0 ==> forall i :: 0 <= i < |t| ==> IsDigit(t[i])
    ensures n >= 0 && t[0] == '0' ==> t == "0"
  {
    if n < 0 then "-" + ShowNat(-n) else ShowNat(n)
  }

  /** The value of a run of digits, most significant first. */
  function DigitsValue(t: string): nat
    requires forall i :: 0 <= i < |t| ==> IsDigit(t[i])
  {
    if t == [] then 0 else 10 * DigitsValue(t[..|t| - 1]) + DigitValue(t[|t| - 1])
  }

  function ParseUnsigned(t: string): Option<nat>
  {
    if |t| > 0 && forall i :: 0 <= i < |t| ==> IsDigit(t[i]) then Some(DigitsValue(t)) else None
  }

  /** Python's integer literal, once trimmed: an optional sign, then one or more ASCII digits. */
  predicate IntText(t: string)
  {
    && |t| > 0
    && (IsDigit(t[0]) || (|t| >= 2 && (t[0] == '-' || t[0] == '+')))
    && forall i :: 0 < i < |t| ==> IsDigit(t[i])
  }

  /** The value of an integer literal: the digits' value, negated after a minus sign. */
  function IntTextValue(t: string): int
    requires IntText(t)
  {
    if t[0] == '-' then -(DigitsValue(t[1..]) as int)
    else if t[0] == '+' then DigitsValue(t[1..])
    else DigitsValue(t)
  }

  /** `int(text)`: None where Python raises ValueError. */
  function ParseInt(text: string): (r: Option<int>)
    ensures r.Some? ==> Strip(text) != []
    ensures r.Some? <==> IntText(Strip(text))
    ensures r.Some? ==> r.value == IntTextValue(Strip(text))
  {
    var t := Strip(text);
    if t == [] then None
    else if t[0] == '-' then
      match ParseUnsigned(t[1..]) case Some(v) => Some(-(v as int)) case None => None
    else if t[0] == '+' then
      match ParseUnsigned(t[1..]) case Some(v) => Some(v) case None => None
    else
      match ParseUnsigned(t) case Some(v) => Some(v) case None => None
  }

  lemma {:induction false} ShowNatValue(n: nat)
    ensures DigitsValue(ShowNat(n)) == n
  {
    if n >= 10 {
      ShowNatValue(n / 10);
      var t := ShowNat(n);
      assert t[..|t| - 1] == ShowNat(n / 10);
    }
  }

  /** The digits of a natural number parse back to it. */
  lemma ParseShowNat(n: nat)
    ensures ParseUnsigned(ShowNat(n)) == Some(n)
  {
    ShowNatValue(n);
  }

  /** `int(str(n)) == n` for every integer. */
  lemma ParseShow(n: int)
    ensures ParseInt(ShowInt(n)) == Some(n)
  {
    var t := ShowInt(n);
    StripKeepsTrimmed(t);
    if n < 0 {
      ParseShowNegative(n);
    } else {
      ParseShowNonNegative(n);
    }
  }

  lemma ParseShowNegative(n: int)
    requires n < 0 && Strip(ShowInt(n)) == ShowInt(n)
    ensures ParseInt(ShowInt(n)) == Some(n)
  {
    var t := ShowInt(n);
    assert t[0] == '-' && t[1..] == ShowNat(-n);
    ParseShowNat(-n);
  }

  lemma ParseShowNonNegative(n: int)
    requires n >= 0 && Strip(ShowInt(n)) == ShowInt(n)
    ensures ParseInt(ShowInt(n)) == Some(n)
  {
    var t := ShowInt(n);
    assert t == ShowNat(n) && IsDigit(t[0]);
    assert t[0] != '-' && t[0] != '+';
    ParseShowNat(n);
  }

  /** `str(n)` is written with digits and a minus sign only. */
  lemma ShowIntAlphabet(n: int)
    ensures forall i :: 0 <= i < |ShowInt(n)| ==> IsDigit(ShowInt(n)[i]) || ShowInt(n)[i] == '-'
  {
  }

  /** Distinct integers have distinct decimal texts. */
  lemma ShowIntInjective()
    ensures forall a, b :: ShowInt(a) == ShowInt(b) ==> a == b
  {
    forall a, b | ShowInt(a) == ShowInt(b) ensures a == b {
      ParseShow(a);
      ParseShow(b);
    }
  }

  /** Stringifying a set of integers loses none of them. */
  lemma ShowImageSize(ids: set<int>)
    ensures |(set id | id in ids :: ShowInt(id))| == |ids|
    decreases |ids|
  {
    HasMemberUnlessEmpty(ids);
    if ids != {} {
      var x :| x in ids;
      var rest := ids - {x};
      ShowImageSize(rest);
      ShowIntInjective();
      var img := set id | id in ids :: ShowInt(id);
      var imgRest := set id | id in rest :: ShowInt(id);
      assert img == imgRest + {ShowInt(x)};
      assert ShowInt(x) !in imgRest;
    }
  }

  lemma HasMemberUnlessEmpty(ids: set<int>)
    ensures ids == {} || exists y :: y in ids
  {
    if !(exists y :: y in ids) {
      forall y ensures y !in ids {}
      assert ids == {};
    }
  }
}

=== FILE: order_menus.dfy ===
/**
 The interactive order menus of the command-line client: the cancel menu
 offers the caller's Pending orders, the driver's complete menu offers the
 orders listed as Confirmed or Delivering, and the chosen entry's label is
 read back into an order id. The list the client shows is what the server's
 list endpoint returns for the caller.
 */
module OrderMenus {
  import opened Domain
  import opened Validators
  import opened Numerals
  import opened Dispatch

  /** One order as the list endpoint serializes it: its id, status label and the rest of its menu caption. */
  datatype OrderRow = OrderRow(id: OrderId, status: string, caption: string)

  /** `rows` is the list endpoint's answer: each order of the caller's query set, with its status label. */
  predicate Lists(s: Store, u: Caller, rows: seq<OrderRow>)
  {
    && (forall i :: 0 <= i < |rows| ==>
          rows[i].id in Queryset(s, u) && rows[i].status == StatusLabel(s.orders[rows[i].id].status))
    && (forall id :: id in Queryset(s, u) ==> exists i :: 0 <= i < |rows| && rows[i].id == id)
  }

  /** The cancel menu lists Pending orders. */
  const CancelStatuses: set<string> := {"Pending"}

  /** The complete menu lists Confirmed and Delivering orders; no order is ever Confirmed. */
  const CompleteStatuses: set<string> := {"Confirmed", "Delivering"}

  /** The rows whose status is one of `wanted`, in their listed order. */
  function RowsWithStatus(rows: seq<OrderRow>, wanted: set<string>): (r: seq<OrderRow>)
    ensures |r| <= |rows|
    ensures forall i :: 0 <= i < |r| ==> r[i] in rows && r[i].status in wanted
    ensures forall i :: 0 <= i < |rows| && rows[i].status in wanted ==> rows[i] in r
  {
    if rows == [] then []
    else if rows[0].status in wanted then [rows[0]] + RowsWithStatus(rows[1..], wanted)
    else RowsWithStatus(rows[1..], wanted)
  }

  /** Whether some row of `rows` shows order `id`. */
  predicate Offers(rows: seq<OrderRow>, id: OrderId)
  {
    exists i :: 0 <= i < |rows| && rows[i].id == id
  }

  /** The menu entry for a row: `Order #<id> - <caption>`. */
  function ChoiceLabel(row: OrderRow): string
  {
    "Order #" + ShowInt(row.id) + " - " + row.caption
  }

  /** `t.split(c)[0]`: the text before the first `c`. */
  function FirstField(t: string, c: char): (r: string)
    ensures c !in r && r <= t
    ensures |r| == |t| || t[|r|] == c
  {
    t[..IndexOf(t, c)]
  }

  /** `t.split(c)[1]`: the text between the first and the second `c`; None where Python raises IndexError. */
  function SecondField(t: string, c: char): (r: Option<string>)
    ensures r.None? <==> c !in t
    ensures r.Some? ==> c !in r.value
    ensures r.Some? ==> exists k :: 0 <= k < |t| && t[k] == c && c !in t[..k] && FieldAt(t, k + 1, r.value, c)
  {
    var k := IndexOf(t, c);
    if k == |t| then None
    else
      var f := FirstField(t[k + 1..], c);
      assert t[k + 1..][..|f|] == f;
      assert c !in t[..k];
      assert FieldAt(t, k + 1, f, c);
      Some(f)
  }

  /** `f` occurs in `t` at index `j` and ends at the end of `t` or at a `c`. */
  predicate FieldAt(t: string, j: nat, f: string, c: char)
  {
    j + |f| <= |t| && t[j..j + |f|] == f && (j + |f| == |t| || t[j + |f|] == c)
  }

  /** `int(selected.split("#")[1].split(" ")[0])`: None where Python raises. */
  function PickedId(selected: string): (r: Option<int>)
    ensures '#' !in selected ==> r.None?
    ensures r.Some? ==> SecondField(selected, '#').Some? && r == ParseInt(FirstField(SecondField(selected, '#').value, ' '))
  {
    match SecondField(selected, '#')
    case None => None
    case Some(f) => ParseInt(FirstField(f, ' '))
  }

  /**
   The order id a menu command acts on. An explicit id is used as given, except
   that 0 counts as no id; otherwise an empty menu ends the command, the
   select prompt may be dismissed, and the chosen entry's label is read back.
   The select prompt answers one of its entries or nothing.
   */
  function MenuTarget(arg: Option<int>, choices: seq<OrderRow>, pick: Option<nat>): (r: Option<OrderId>)
    requires pick.Some? ==> pick.value < |choices|
    ensures arg.Some? && arg.value != 0 ==> r == arg
    ensures (arg.None? || arg.value == 0) ==> (r.Some? <==> pick.Some?)
    ensures (arg.None? || arg.value == 0) && r.Some? ==> r.value == choices[pick.value].id
  {
    if arg.Some? && arg.value != 0 then arg
    else if choices == [] then None
    else match pick
      case None => None
      case Some(k) =>
        PickedIdOfLabel(choices[k]);
        PickedId(ChoiceLabel(choices[k]))
  }

  lemma {:induction false} IndexOfAfter(a: string, b: string, c: char)
    requires c !in a
    ensures IndexOf(a + b, c) == |a| + IndexOf(b, c)
    decreases |a|
  {
    if a == [] {
      assert a + b == b;
    } else {
      assert (a + b)[0] == a[0];
      assert (a + b)[1..] == a[1..] + b;
      IndexOfAfter(a[1..], b, c);
    }
  }

  /** Reading a label back gives the id it was made from, whatever the caption holds. */
  lemma PickedIdOfLabel(row: OrderRow)
    ensures PickedId(ChoiceLabel(row)) == Some(row.id)
  {
    var n := ShowInt(row.id);
    var tail := " - " + row.caption;
    ShowIntAlphabet(row.id);
    assert '#' !in n && ' ' !in n;
    assert ChoiceLabel(row) == "Order #" + n + tail;
    LabelSecondField(n, tail);
    IndexOfAfter(" - ", row.caption, '#');
    var rest := FirstField(tail, '#');
    assert rest[0] == ' ';
    FirstFieldAfter(n, rest, ' ');
    assert FirstField(rest, ' ') == [];
    ParseShow(row.id);
  }

  lemma LabelSecondField(n: string, tail: string)
    requires '#' !in n
    ensures SecondField("Order #" + n + tail, '#') == Some(n + FirstField(tail, '#'))
  {
    var t := "Order #" + n + tail;
    var rest := "#" + (n + tail);
    assert t == "Order " + rest;
    assert IndexOf(rest, '#') == 0;
    IndexOfAfter("Order ", rest, '#');
    assert t[7..] == n + tail;
    FirstFieldAfter(n, tail, '#');
  }

  /** A prefix free of `c` stays in front of the first field. */
  lemma FirstFieldAfter(n: string, tail: string, c: char)
    requires c !in n
    ensures FirstField(n + tail, c) == n + FirstField(tail, c)
  {
    IndexOfAfter(n, tail, c);
    var j := IndexOf(tail, c);
    assert (n + tail)[..|n| + j] == n + tail[..j];
  }

  /** The cancel menu offers exactly the orders the caller's cancellation would succeed on. */
  lemma CancelMenuMatchesCancel(s: Store, u: Caller, rows: seq<OrderRow>, id: OrderId)
    requires Lists(s, u, rows)
    ensures Offers(RowsWithStatus(rows, CancelStatuses), id) <==> Cancel(s, u, id).Done?
  {
    var menu := RowsWithStatus(rows, CancelStatuses);
    if Offers(menu, id) {
      var i :| 0 <= i < |menu| && menu[i].id == id;
      var j :| 0 <= j < |rows| && rows[j] == menu[i];
      StatusLabelsDistinct(s.orders[id].status, Pending);
    }
    if Cancel(s, u, id).Done? {
      var j :| 0 <= j < |rows| && rows[j].id == id;
      assert rows[j] in menu;
    }
  }

  /** No status is stored under the label "Confirmed". */
  lemma NoStatusIsConfirmed(st: Status)
    ensures StatusLabel(st) != "Confirmed"
  {
    match st
    case Pending =>
    case Delivering =>
    case Delivered =>
    case Cancelled =>
  }

  /**
   In any store, reachable or not, a driver's complete menu offers exactly
   that driver's Delivering orders, and completing each of them succeeds.
   */
  lemma CompleteMenuIsOwnActiveJobs(s: Store, u: Caller, rows: seq<OrderRow>, id: OrderId)
    requires u.role == Driver && Lists(s, u, rows)
    ensures Offers(RowsWithStatus(rows, CompleteStatuses), id) <==>
      id in s.orders && s.orders[id].driver == Some(u.id) && s.orders[id].status == Delivering
    ensures Offers(RowsWithStatus(rows, CompleteStatuses), id) ==> CompleteJob(s, u, id).Done?
  {
    if Offers(RowsWithStatus(rows, CompleteStatuses), id) {
      CompleteMenuOffersOwnJobs(s, u, rows, id);
    }
    if id in s.orders && s.orders[id].driver == Some(u.id) && s.orders[id].status == Delivering {
      OwnJobsOnCompleteMenu(s, u, rows, id);
    }
  }

  lemma CompleteMenuOffersOwnJobs(s: Store, u: Caller, rows: seq<OrderRow>, id: OrderId)
    requires u.role == Driver && Lists(s, u, rows)
    requires Offers(RowsWithStatus(rows, CompleteStatuses), id)
    ensures id in s.orders && s.orders[id].driver == Some(u.id) && s.orders[id].status == Delivering
  {
    var menu := RowsWithStatus(rows, CompleteStatuses);
    var i :| 0 <= i < |menu| && menu[i].id == id;
    var j :| 0 <= j < |rows| && rows[j] == menu[i];
    assert id in Queryset(s, u);
    var st := s.orders[id].status;
    assert StatusLabel(st) in CompleteStatuses;
    NoStatusIsConfirmed(st);
    StatusLabelsDistinct(st, Delivering);
  }

  lemma OwnJobsOnCompleteMenu(s: Store, u: Caller, rows: seq<OrderRow>, id: OrderId)
    requires u.role == Driver && Lists(s, u, rows)
    requires id in s.orders && s.orders[id].driver == Some(u.id) && s.orders[id].status == Delivering
    ensures Offers(RowsWithStatus(rows, CompleteStatuses), id)
  {
    var menu := RowsWithStatus(rows, CompleteStatuses);
    assert id in Queryset(s, u);
    var j :| 0 <= j < |rows| && rows[j].id == id;
    assert rows[j] in menu;
  }

  /** Choosing any entry of the cancel menu cancels that order. */
  lemma CancelFromMenu(s: Store, u: Caller, rows: seq<OrderRow>, k: nat)
    requires Lists(s, u, rows) && k < |RowsWithStatus(rows, CancelStatuses)|
    ensures var menu := RowsWithStatus(rows, CancelStatuses);
      var t := MenuTarget(None, menu, Some(k));
      && t == Some(menu[k].id)
      && Cancel(s, u, t.value).Done?
  {
    var menu := RowsWithStatus(rows, CancelStatuses);
    CancelMenuMatchesCancel(s, u, rows, menu[k].id);
  }
}

=== FILE: registration.dfy ===
/**
 Registration: the request body the interactive client submits, and what the
 server's registration serializer makes of it — the validation of the
 required fields, the new account, and the profile fields it writes.
 */
module Registration {
  import opened Domain
  import opened Validators

  /** The client's working record; every field starts as the empty string. */
  datatype Draft = Draft(
    username: string,
    email: string,
    password: string,
    phoneNumber: string,
    role: string,
    address: string,
    licenseNumber: string,
    vehiclePlate: string,
    vehicleType: string,
    bankAccount: string)

  /** A JSON request body of the registration endpoint: `None` is a key that was not sent. */
  datatype Body = Body(
    username: Option<string>,
    email: Option<string>,
    password: Option<string>,
    phoneNumber: Option<string>,
    role: Option<string>,
    address: Option<string>,
    licenseNumber: Option<string>,
    vehiclePlate: Option<string>,
    vehicleType: Option<string>,
    bankAccount: Option<string>)

  /** The optional profile fields, in the serializer's order after the role. */
  datatype Field = PhoneNumber | Address | LicenseNumber | VehiclePlate | VehicleType | BankAccount

  /** The value a body carries for an optional field. */
  function Sent(b: Body, f: Field): Option<string>
  {
    match f
    case PhoneNumber => b.phoneNumber
    case Address => b.address
    case LicenseNumber => b.licenseNumber
    case VehiclePlate => b.vehiclePlate
    case VehicleType => b.vehicleType
    case BankAccount => b.bankAccount
  }

  /** Sends a value only when it is non-empty (Python truthiness of a string). */
  function IfGiven(value: string): Option<string>
  {
    if value != "" then Some(value) else None
  }

  /** A field is sent exactly when `cond` holds and `value` is non-empty, and then carries `value`. */
  predicate SentIff(f: Option<string>, cond: bool, value: string)
  {
    (f.Some? <==> cond && value != "") && (f.Some? ==> f.value == value)
  }

  /**
   The submitted `final_data`: the five base fields always; then for a
   Customer the address if given, for any other role each driver field if
   given; no other key.
   */
  function FinalPayload(d: Draft): (b: Body)
    ensures b.username == Some(d.username) && b.email == Some(d.email) && b.password == Some(d.password)
    ensures b.phoneNumber == Some(d.phoneNumber) && b.role == Some(d.role)
    ensures SentIff(b.address, d.role == "Customer", d.address)
    ensures SentIff(b.licenseNumber, d.role != "Customer", d.licenseNumber)
    ensures SentIff(b.vehiclePlate, d.role != "Customer", d.vehiclePlate)
    ensures SentIff(b.vehicleType, d.role != "Customer", d.vehicleType)
    ensures SentIff(b.bankAccount, d.role != "Customer", d.bankAccount)
  {
    var customer := d.role == "Customer";
    Body(Some(d.username), Some(d.email), Some(d.password), Some(d.phoneNumber), Some(d.role),
         if customer then IfGiven(d.address) else None,
         if customer then None else IfGiven(d.licenseNumber),
         if customer then None else IfGiven(d.vehiclePlate),
         if customer then None else IfGiven(d.vehicleType),
         if customer then None else IfGiven(d.bankAccount))
  }

  /** The registration form's role field: only Customer and Driver are offered, matched exactly. */
  function ValidateRole(text: string): (r: Option<Role>)
    ensures r.Some? <==> text == "Customer" || text == "Driver"
    ensures r.Some? ==> RoleLabel(r.value) == text && r.value != RestaurantOwner
  {
    if text == "Customer" then Some(Customer)
    else if text == "Driver" then Some(Driver)
    else None
  }

  /**
   A required text field (`CharField`, and `EmailField` before its format
   check): sent, and not blank once surrounding whitespace is trimmed.
   */
  predicate FilledIn(f: Option<string>)
  {
    f.Some? && Strip(f.value) != ""
  }

  /**
   Every character field of the serializer (`CharField`, `EmailField`)
   refuses a value holding a NUL character; the role's `ChoiceField` does not
   carry that check. An unsent field passes.
   */
  predicate NulFree(f: Option<string>)
  {
    f.None? || '\0' !in f.value
  }

  /** The serializer's fields that can be reported invalid: the four required ones and the optional profile fields. */
  datatype FormField = UsernameField | EmailField | PasswordField | RoleField | ProfileField(field: Field)

  const ProfileFields: set<Field> := {PhoneNumber, Address, LicenseNumber, VehiclePlate, VehicleType, BankAccount}

  lemma ProfileFieldsListed(f: Field)
    ensures f in ProfileFields
  {
  }

  /** The optional fields whose sent value holds a NUL. */
  function NulFields(b: Body): (bad: set<FormField>)
    ensures forall f :: ProfileField(f) in bad <==> !NulFree(Sent(b, f))
    ensures forall x :: x in bad ==> x.ProfileField?
  {
    var bad := set f | f in ProfileFields && !NulFree(Sent(b, f)) :: ProfileField(f);
    assert forall f :: f in ProfileFields by {
      forall f ensures f in ProfileFields {
        ProfileFieldsListed(f);
      }
    }
    bad
  }

  /** The four required fields. */
  const RequiredFields: set<FormField> := {UsernameField, EmailField, PasswordField, RoleField}

  /** The required fields the serializer reports invalid. */
  function RequiredInvalid(b: Body, emailAccepted: string -> bool): (bad: set<FormField>)
    ensures UsernameField in bad <==> !(FilledIn(b.username) && NulFree(b.username))
    ensures EmailField in bad <==> !(FilledIn(b.email) && NulFree(b.email) && emailAccepted(Strip(b.email.value)))
    ensures PasswordField in bad <==> !(FilledIn(b.password) && NulFree(b.password))
    ensures RoleField in bad <==> !(b.role.Some? && ValidateRole(b.role.value).Some?)
    ensures bad <= RequiredFields
  {
    (if FilledIn(b.username) && NulFree(b.username) then {} else {UsernameField})
    + (if FilledIn(b.email) && NulFree(b.email) && emailAccepted(Strip(b.email.value)) then {} else {EmailField})
    + (if FilledIn(b.password) && NulFree(b.password) then {} else {PasswordField})
    + (if b.role.Some? && ValidateRole(b.role.value).Some? then {} else {RoleField})
  }

  /**
   The fields the serializer reports invalid. Whether Django's
   email validator accepts a trimmed address is the parameter `emailAccepted`.
   */
  function InvalidFields(b: Body, emailAccepted: string -> bool): (bad: set<FormField>)
    ensures UsernameField in bad <==> !(FilledIn(b.username) && NulFree(b.username))
    ensures EmailField in bad <==> !(FilledIn(b.email) && NulFree(b.email) && emailAccepted(Strip(b.email.value)))
    ensures PasswordField in bad <==> !(FilledIn(b.password) && NulFree(b.password))
    ensures RoleField in bad <==> !(b.role.Some? && ValidateRole(b.role.value).Some?)
    ensures forall f :: ProfileField(f) in bad <==> !NulFree(Sent(b, f))
  {
    RequiredInvalid(b, emailAccepted) + NulFields(b)
  }

  /** No optional field sent holds a NUL. */
  predicate ProfileNulFree(b: Body)
  {
    && NulFree(b.phoneNumber) && NulFree(b.address) && NulFree(b.licenseNumber)
    && NulFree(b.vehiclePlate) && NulFree(b.vehicleType) && NulFree(b.bankAccount)
  }

  /** A body passes validation exactly when every required field is acceptable and no field holds a NUL. */
  lemma NoInvalidFields(b: Body, emailAccepted: string -> bool)
    ensures InvalidFields(b, emailAccepted) == {} <==>
      && FilledIn(b.username) && NulFree(b.username)
      && FilledIn(b.email) && NulFree(b.email) && emailAccepted(Strip(b.email.value))
      && FilledIn(b.password) && NulFree(b.password)
      && b.role.Some? && ValidateRole(b.role.value).Some?
      && ProfileNulFree(b)
  {
    RequiredInvalidEmpty(b, emailAccepted);
    NulFieldsEmpty(b);
  }

  lemma RequiredInvalidEmpty(b: Body, emailAccepted: string -> bool)
    ensures RequiredInvalid(b, emailAccepted) == {} <==>
      && FilledIn(b.username) && NulFree(b.username)
      && FilledIn(b.email) && NulFree(b.email) && emailAccepted(Strip(b.email.value))
      && FilledIn(b.password) && NulFree(b.password)
      && b.role.Some? && ValidateRole(b.role.value).Some?
  {
    var bad := RequiredInvalid(b, emailAccepted);
    if UsernameField !in bad && EmailField !in bad && PasswordField !in bad && RoleField !in bad {
      forall x | x in bad ensures false {
      }
    }
  }

  lemma NulFieldsEmpty(b: Body)
    ensures NulFields(b) == {} <==> ProfileNulFree(b)
  {
    var bad := NulFields(b);
    if ProfileNulFree(b) {
      forall x | x in bad ensures false {
        ProfileFieldNotBad(b, x);
      }
    } else if !NulFree(b.phoneNumber) {
      assert ProfileField(PhoneNumber) in bad;
    } else if !NulFree(b.address) {
      assert ProfileField(Address) in bad;
    } else if !NulFree(b.licenseNumber) {
      assert ProfileField(LicenseNumber) in bad;
    } else if !NulFree(b.vehiclePlate) {
      assert ProfileField(VehiclePlate) in bad;
    } else if !NulFree(b.vehicleType) {
      assert ProfileField(VehicleType) in bad;
    } else {
      assert ProfileField(BankAccount) in bad;
    }
  }

  lemma ProfileFieldNotBad(b: Body, x: FormField)
    requires ProfileNulFree(b) && x.ProfileField?
    ensures x !in NulFields(b)
  {
    match x.field
    case PhoneNumber =>
    case Address =>
    case LicenseNumber =>
    case VehiclePlate =>
    case VehicleType =>
    case BankAccount =>
  }

  /** The new user's account row. */
  datatype Account = Account(username: string, email: string, password: string)

  /** ASCII lower case; every other character is kept. */
  function LowerChar(c: char): (r: char)
    ensures IsAsciiLetter(c) ==> 'a' <= r <= 'z'
    ensures !('A' <= c <= 'Z') ==> r == c
    ensures !('A' <= r <= 'Z') && (r == '@' <==> c == '@')
  {
    if 'A' <= c <= 'Z' then (c as int + 32) as char else c
  }

  function Lower(t: string): (r: string)
    ensures |r| == |t| && forall i :: 0 <= i < |t| ==> r[i] == LowerChar(t[i])
  {
    seq(|t|, i requires 0 <= i < |t| => LowerChar(t[i]))
  }

  /** The text with everything after index `k` lower-cased. */
  function LowerDomain(t: string, k: nat): (r: string)
    requires k < |t|
    ensures |r| == |t| && r[..k + 1] == t[..k + 1]
    ensures forall i :: k < i < |t| ==> r[i] == LowerChar(t[i])
  {
    t[..k + 1] + Lower(t[k + 1..])
  }

  /**
   Django's `normalize_email`, which `create_user` applies: the text after
   the last '@' is lower-cased, everything up to it is kept; a text without
   '@' is kept whole. Its own trimming finds nothing left to trim in the
   serializer's already trimmed value (StripIdempotent).
   */
  function NormalizeEmail(e: string): (r: string)
    ensures |r| == |e|
    ensures forall i :: 0 <= i < |e| ==> r[i] == if i > LastIndexOf(e, '@') >= 0 then LowerChar(e[i]) else e[i]
  {
    var k := LastIndexOf(e, '@');
    if k < 0 then e else LowerDomain(e, k)
  }

  /** Lower-casing twice is lower-casing once. */
  lemma LowerIdempotent(t: string)
    ensures Lower(Lower(t)) == Lower(t)
  {
  }

  /** Lower-casing after `k` keeps the last '@' where it was. */
  lemma LowerDomainKeepsLastAt(e: string, k: nat)
    requires k < |e| && LastIndexOf(e, '@') == k
    ensures LastIndexOf(LowerDomain(e, k), '@') == k
  {
    var r := LowerDomain(e, k);
    forall i | k < i < |r| ensures r[i] != '@' {
      assert r[i] == LowerChar(e[i]);
    }
    assert r[k] == r[..k + 1][k] == e[..k + 1][k];
    LastIndexOfIs(r, '@', k);
  }

  /** Lower-casing after `k` twice is doing it once. */
  lemma LowerDomainIdempotent(e: string, k: nat)
    requires k < |e|
    ensures LowerDomain(LowerDomain(e, k), k) == LowerDomain(e, k)
  {
    var r := LowerDomain(e, k);
    var n := LowerDomain(r, k);
    forall i | 0 <= i < |r| ensures n[i] == r[i] {
      if i <= k {
        assert n[i] == n[..k + 1][i] == r[..k + 1][i];
      }
    }
  }

  /** Normalising an address twice is normalising it once. */
  lemma NormalizeEmailIdempotent(e: string)
    ensures NormalizeEmail(NormalizeEmail(e)) == NormalizeEmail(e)
  {
    var k := LastIndexOf(e, '@');
    if k >= 0 {
      LowerDomainKeepsLastAt(e, k);
      LowerDomainIdempotent(e, k);
    }
  }

  /** A user profile: a role, and the optional fields, each null (`None`) or set. */
  datatype Profile = Profile(
    role: Role,
    phoneNumber: Option<string>,
    address: Option<string>,
    licenseNumber: Option<string>,
    vehiclePlate: Option<string>,
    vehicleType: Option<string>,
    bankAccount: Option<string>)

  /** The value a profile holds in an optional field. */
  function Get(p: Profile, f: Field): Option<string>
  {
    match f
    case PhoneNumber => p.phoneNumber
    case Address => p.address
    case LicenseNumber => p.licenseNumber
    case VehiclePlate => p.vehiclePlate
    case VehicleType => p.vehicleType
    case BankAccount => p.bankAccount
  }

  /** The profile the post-save signal creates: role Customer, every other field null. */
  const NewProfile: Profile := Profile(DefaultRole, None, None, None, None, None, None)

  /** Python truthiness of an optional string: present and non-empty. */
  predicate Truthy(v: Option<string>)
  {
    v.Some? && v.value != ""
  }

  /** `if value: setattr(profile, attr, value)` for one field. */
  function Overwrite(current: Option<string>, value: Option<string>): Option<string>
  {
    if Truthy(value) then value else current
  }

  /**
   The serializer's loop over `profile_data`: a truthy value overwrites the
   field; a null or empty one leaves the field as it was. The role is always
   truthy once validated, so it is always written.
   */
  function CopyTruthy(profile: Profile, data: Profile): (r: Profile)
    ensures r.role == data.role
    ensures forall f :: Truthy(Get(data, f)) ==> Get(r, f) == Get(data, f)
    ensures forall f :: !Truthy(Get(data, f)) ==> Get(r, f) == Get(profile, f)
  {
    Profile(data.role,
            Overwrite(profile.phoneNumber, data.phoneNumber),
            Overwrite(profile.address, data.address),
            Overwrite(profile.licenseNumber, data.licenseNumber),
            Overwrite(profile.vehiclePlate, data.vehiclePlate),
            Overwrite(profile.vehicleType, data.vehicleType),
            Overwrite(profile.bankAccount, data.bankAccount))
  }

  /** A cleaned optional `CharField`: trimmed when sent, `None` when not sent. */
  function Cleaned(f: Option<string>): Option<string>
  {
    if f.Some? then Some(Strip(f.value)) else None
  }

  /** The serializer's `profile_data`: the validated role and the cleaned optional fields. */
  function ProfileData(role: Role, b: Body): (data: Profile)
    ensures data.role == role
    ensures forall f :: Get(data, f) == Cleaned(Sent(b, f))
  {
    var data := Profile(role, Cleaned(b.phoneNumber), Cleaned(b.address), Cleaned(b.licenseNumber),
                        Cleaned(b.vehiclePlate), Cleaned(b.vehicleType), Cleaned(b.bankAccount));
    FieldwiseCleaned(data, b);
    data
  }

  lemma FieldwiseCleaned(data: Profile, b: Body)
    requires data.phoneNumber == Cleaned(b.phoneNumber) && data.address == Cleaned(b.address)
    requires data.licenseNumber == Cleaned(b.licenseNumber) && data.vehiclePlate == Cleaned(b.vehiclePlate)
    requires data.vehicleType == Cleaned(b.vehicleType) && data.bankAccount == Cleaned(b.bankAccount)
    ensures forall f :: Get(data, f) == Cleaned(Sent(b, f))
  {
    forall f ensures Get(data, f) == Cleaned(Sent(b, f)) {
      match f
      case PhoneNumber =>
      case Address =>
      case LicenseNumber =>
      case VehiclePlate =>
      case VehicleType =>
      case BankAccount =>
    }
  }

  /** Copying the cleaned fields over a new profile stores exactly the non-blank ones, trimmed. */
  lemma CleanedCopy(data: Profile, b: Body)
    requires forall f :: Get(data, f) == Cleaned(Sent(b, f))
    ensures forall f :: CopiedFrom(Get(CopyTruthy(NewProfile, data), f), Sent(b, f))
  {
    var r := CopyTruthy(NewProfile, data);
    forall f ensures CopiedFrom(Get(r, f), Sent(b, f)) {
      assert Get(NewProfile, f) == None;
      assert Truthy(Get(data, f)) <==> FilledIn(Sent(b, f));
    }
  }

  /** What registration gives: the new user, the fields at fault, or a clash on the username. */
  datatype RegisterOutcome =
    | Registered(account: Account, profile: Profile)
    | Rejected(fields: set<FormField>)
    | DuplicateUsername

  /** A stored optional field: set exactly when the sent value is not blank, and then its trimmed text. */
  predicate CopiedFrom(stored: Option<string>, sent: Option<string>)
  {
    (stored.Some? <==> FilledIn(sent)) && (stored.Some? ==> stored.value == Strip(sent.value))
  }

  /**
   UserRegistrationSerializer: every invalid field is reported together;
   a valid body whose trimmed username is already taken makes `create_user`
   fail; otherwise the account holds the trimmed username and password and
   the trimmed email with its domain lower-cased, and the new profile the
   role and each optional field that is not blank.
   */
  function RegisterProfile(b: Body, emailAccepted: string -> bool, taken: set<string>): (r: RegisterOutcome)
    ensures r.Rejected? <==> InvalidFields(b, emailAccepted) != {}
    ensures r.Rejected? ==> r.fields == InvalidFields(b, emailAccepted)
    ensures r.DuplicateUsername? <==> InvalidFields(b, emailAccepted) == {} && Strip(b.username.value) in taken
    ensures r.Registered? ==>
      && r.account == Account(Strip(b.username.value), NormalizeEmail(Strip(b.email.value)), Strip(b.password.value))
      && r.account.username !in taken
      && RoleLabel(r.profile.role) == b.role.value
      && forall f :: CopiedFrom(Get(r.profile, f), Sent(b, f))
  {
    var bad := InvalidFields(b, emailAccepted);
    if bad != {} then Rejected(bad)
    else if Strip(b.username.value) in taken then DuplicateUsername
    else
      var account := Account(Strip(b.username.value), NormalizeEmail(Strip(b.email.value)), Strip(b.password.value));
      var data := ProfileData(ValidateRole(b.role.value).value, b);
      CleanedCopy(data, b);
      Registered(account, CopyTruthy(NewProfile, data))
  }

  /** What a typed value becomes in the profile: its trimmed text when that is not empty, else null. */
  predicate Stored(f: Option<string>, typed: string)
  {
    (f.Some? <==> Strip(typed) != "") && (f.Some? ==> f.value == Strip(typed))
  }

  /** The client sends a field only when it is not empty; the empty string strips to itself. */
  lemma CopiedFromTyped(stored: Option<string>, sent: Option<string>, typed: string)
    requires CopiedFrom(stored, sent)
    requires SentIff(sent, true, typed)
    ensures Stored(stored, typed)
  {
    if typed == "" {
      assert Strip(typed) == "";
    }
  }

  /**
   Whether the server accepts a draft the client submits: the account fields
   are not blank, the email is accepted, the username is free, and no field
   the draft sends for its role holds a NUL.
   */
  predicate DraftAccepted(d: Draft, emailAccepted: string -> bool, taken: set<string>)
  {
    && Strip(d.username) != "" && Strip(d.password) != ""
    && Strip(d.email) != "" && emailAccepted(Strip(d.email))
    && Strip(d.username) !in taken
    && '\0' !in d.username && '\0' !in d.email && '\0' !in d.password && '\0' !in d.phoneNumber
    && (d.role == "Customer" ==> '\0' !in d.address)
    && (d.role != "Customer" ==>
          '\0' !in d.licenseNumber && '\0' !in d.vehiclePlate && '\0' !in d.vehicleType && '\0' !in d.bankAccount)
  }

  /** A submitted draft with an offered role registers exactly when the server accepts it. */
  lemma SubmittedRegistersIff(d: Draft, emailAccepted: string -> bool, taken: set<string>)
    requires d.role == "Customer" || d.role == "Driver"
    ensures RegisterProfile(FinalPayload(d), emailAccepted, taken).Registered? <==>
      DraftAccepted(d, emailAccepted, taken)
  {
    var b := FinalPayload(d);
    NoInvalidFields(b, emailAccepted);
    assert ValidateRole(d.role).Some?;
    assert ProfileNulFree(b) <==>
      && '\0' !in d.phoneNumber
      && (d.role == "Customer" ==> '\0' !in d.address)
      && (d.role != "Customer" ==>
            '\0' !in d.licenseNumber && '\0' !in d.vehiclePlate && '\0' !in d.vehicleType && '\0' !in d.bankAccount);
  }

  /**
   End to end, Customer: the submitted draft registers exactly when its
   server accepts it, and then yields a Customer profile with the
   trimmed phone number and address when they are not blank, and no driver
   field.
   */
  lemma SubmittedCustomerProfile(d: Draft, emailAccepted: string -> bool, taken: set<string>)
    requires d.role == "Customer"
    ensures var r := RegisterProfile(FinalPayload(d), emailAccepted, taken);
      && (r.Registered? <==> DraftAccepted(d, emailAccepted, taken))
      && (r.Registered? ==>
            && r.profile.role == Customer
            && Stored(r.profile.phoneNumber, d.phoneNumber)
            && Stored(r.profile.address, d.address)
            && r.profile.licenseNumber == None && r.profile.vehiclePlate == None
            && r.profile.vehicleType == None && r.profile.bankAccount == None)
  {
    SubmittedRegistersIff(d, emailAccepted, taken);
    var r := RegisterProfile(FinalPayload(d), emailAccepted, taken);
    if r.Registered? {
      CustomerFields(d, r.profile);
    }
  }

  /** The optional fields of a profile built from a submitted Customer draft. */
  lemma CustomerFields(d: Draft, p: Profile)
    requires d.role == "Customer"
    requires forall f :: CopiedFrom(Get(p, f), Sent(FinalPayload(d), f))
    ensures Stored(p.phoneNumber, d.phoneNumber) && Stored(p.address, d.address)
    ensures p.licenseNumber == None && p.vehiclePlate == None && p.vehicleType == None && p.bankAccount == None
  {
    var b := FinalPayload(d);
    assert CopiedFrom(Get(p, PhoneNumber), Sent(b, PhoneNumber));
    assert CopiedFrom(Get(p, Address), Sent(b, Address));
    CopiedFromTyped(p.address, b.address, d.address);
    assert CopiedFrom(Get(p, LicenseNumber), Sent(b, LicenseNumber));
    assert CopiedFrom(Get(p, VehiclePlate), Sent(b, VehiclePlate));
    assert CopiedFrom(Get(p, VehicleType), Sent(b, VehicleType));
    assert CopiedFrom(Get(p, BankAccount), Sent(b, BankAccount));
  }

  /**
   End to end, Driver: the submitted draft registers exactly when its
   server accepts it, and then yields a Driver profile with the
   trimmed phone number and driver fields when they are not blank, and no
   address.
   */
  lemma SubmittedDriverProfile(d: Draft, emailAccepted: string -> bool, taken: set<string>)
    requires d.role == "Driver"
    ensures var r := RegisterProfile(FinalPayload(d), emailAccepted, taken);
      && (r.Registered? <==> DraftAccepted(d, emailAccepted, taken))
      && (r.Registered? ==>
            && r.profile.role == Driver
            && Stored(r.profile.phoneNumber, d.phoneNumber)
            && r.profile.address == None
            && Stored(r.profile.licenseNumber, d.licenseNumber)
            && Stored(r.profile.vehiclePlate, d.vehiclePlate)
            && Stored(r.profile.vehicleType, d.vehicleType)
            && Stored(r.profile.bankAccount, d.bankAccount))
  {
    SubmittedRegistersIff(d, emailAccepted, taken);
    var r := RegisterProfile(FinalPayload(d), emailAccepted, taken);
    if r.Registered? {
      DriverFields(d, r.profile);
    }
  }

  /** The optional fields of a profile built from a submitted Driver draft. */
  lemma DriverFields(d: Draft, p: Profile)
    requires d.role == "Driver"
    requires forall f :: CopiedFrom(Get(p, f), Sent(FinalPayload(d), f))
    ensures Stored(p.phoneNumber, d.phoneNumber) && p.address == None
    ensures Stored(p.licenseNumber, d.licenseNumber) && Stored(p.vehiclePlate, d.vehiclePlate)
    ensures Stored(p.vehicleType, d.vehicleType) && Stored(p.bankAccount, d.bankAccount)
  {
    var b := FinalPayload(d);
    assert CopiedFrom(Get(p, PhoneNumber), Sent(b, PhoneNumber));
    assert CopiedFrom(Get(p, Address), Sent(b, Address));
    assert CopiedFrom(Get(p, LicenseNumber), Sent(b, LicenseNumber));
    CopiedFromTyped(p.licenseNumber, b.licenseNumber, d.licenseNumber);
    assert CopiedFrom(Get(p, VehiclePlate), Sent(b, VehiclePlate));
    CopiedFromTyped(p.vehiclePlate, b.vehiclePlate, d.vehiclePlate);
    assert CopiedFrom(Get(p, VehicleType), Sent(b, VehicleType));
    CopiedFromTyped(p.vehicleType, b.vehicleType, d.vehicleType);
    assert CopiedFrom(Get(p, BankAccount), Sent(b, BankAccount));
    CopiedFromTyped(p.bankAccount, b.bankAccount, d.bankAccount);
  }

  /**
   A username the client's prompt accepts passes the server's checks and
   survives its trimming as typed, less the final newline the pattern lets
   through.
   */
  lemma AcceptedUsernameKept(u: string)
    requires ValidateUsername(u) == Valid
    ensures FilledIn(Some(u)) && NulFree(Some(u)) && Strip(u) == DropFinalNewline(u)
  {
    var t := DropFinalNewline(u);
    assert UsernameShape(t);
    forall i | 0 <= i < |u| ensures u[i] != '\0' {
      if i < |t| {
        assert u[i] == t[i];
      }
    }
    StripKeepsTrimmed(t);
    if t != u {
      assert u == t + "\n";
      StripFinalNewline(t);
    }
  }

  /**
   An email the client's prompt accepts passes the server's blank and NUL
   checks and survives its trimming as typed, less the final newline the
   pattern lets through; the account then keeps the local part and the '@'
   as typed and the domain lower-cased.
   */
  lemma AcceptedEmailKept(e: string)
    requires ValidateEmail(e) == Valid
    ensures FilledIn(Some(e)) && NulFree(Some(e)) && Strip(e) == DropFinalNewline(e)
    ensures IndexOf(Strip(e), '@') < |Strip(e)|
    ensures NormalizeEmail(Strip(e)) == LowerDomain(Strip(e), IndexOf(Strip(e), '@'))
  {
    var t := DropFinalNewline(e);
    var a, d := EmailParts(e);
    EmailSplitKept(e, t, a, d);
  }

  lemma EmailSplitKept(e: string, t: string, a: int, d: int)
    requires t == DropFinalNewline(e) && EmailSplit(t, a, d)
    ensures FilledIn(Some(e)) && NulFree(Some(e)) && Strip(e) == t
    ensures IndexOf(t, '@') == a && NormalizeEmail(Strip(e)) == LowerDomain(t, a)
  {
    EmailTrimmed(e, t, a, d);
    EmailCharsNotNul(e, t, a, d);
    EmailAtIndex(t, a, d);
    NormalizeAt(t, a);
  }

  lemma EmailParts(e: string) returns (a: int, d: int)
    requires ValidateEmail(e) == Valid
    ensures EmailSplit(DropFinalNewline(e), a, d)
  {
    assert EmailPattern(DropFinalNewline(e));
    a, d :| EmailSplit(DropFinalNewline(e), a, d);
  }

  lemma EmailTrimmed(e: string, t: string, a: int, d: int)
    requires t == DropFinalNewline(e) && EmailSplit(t, a, d)
    ensures Strip(e) == t && Strip(t) == t && FilledIn(Some(e))
  {
    assert IsLocalChar(t[0]) && IsAsciiLetter(t[|t| - 1]);
    StripKeepsTrimmed(t);
    if t != e {
      assert e == t + "\n";
      StripFinalNewline(t);
    }
  }

  /** The one '@' of an accepted address is both its first and its last. */
  lemma EmailAtIndex(t: string, a: int, d: int)
    requires EmailSplit(t, a, d)
    ensures IndexOf(t, '@') == a && LastIndexOf(t, '@') == a
  {
    forall i | 0 <= i < a ensures t[i] != '@' {
      assert IsLocalChar(t[i]);
    }
    forall i | a < i < |t| ensures t[i] != '@' {
      if i < d {
        assert IsDomainChar(t[i]);
      } else if i > d {
        assert IsAsciiLetter(t[i]);
      }
    }
    LastIndexOfIs(t, '@', a);
  }

  /** Normalising an address whose last '@' is at `k` lower-cases what follows it. */
  lemma NormalizeAt(t: string, k: int)
    requires 0 <= k < |t| && LastIndexOf(t, '@') == k
    ensures NormalizeEmail(t) == LowerDomain(t, k)
  {
  }

  lemma EmailCharsNotNul(e: string, t: string, a: int, d: int)
    requires t == DropFinalNewline(e) && EmailSplit(t, a, d)
    ensures NulFree(Some(e))
  {
    forall i | 0 <= i < |e| ensures e[i] != '\0' {
      if i < |t| {
        assert e[i] == t[i];
        if i < a {
          assert IsLocalChar(t[i]);
        } else if a < i < d {
          assert IsDomainChar(t[i]);
        } else if i > d {
          assert IsAsciiLetter(t[i]);
        }
      }
    }
  }

  /**
   The passwords the client's prompt accepts and the server rejects as blank
   are exactly those of four or more whitespace characters.
   */
  lemma PasswordsOnlyTheClientAccepts(p: string)
    ensures (ValidatePassword(p) == Valid && !FilledIn(Some(p))) <==>
      |p| >= MinPasswordLength && forall i :: 0 <= i < |p| ==> IsSpace(p[i])
  {
    NonEmptyRejectsOnlyBlank("Password", p);
  }

  /**
   A phone number the client's prompt accepts holds a digit, so the server
   finds it neither blank nor holding a NUL, and a registration that sends it
   stores its trimmed text in the profile.
   */
  lemma AcceptedPhoneKept(p: string, b: Body, emailAccepted: string -> bool, taken: set<string>)
    requires ValidatePhone(p) == Valid
    ensures FilledIn(Some(p)) && NulFree(Some(p))
    ensures Stored(Some(Strip(p)), p)
    ensures b.phoneNumber == Some(p) && RegisterProfile(b, emailAccepted, taken).Registered? ==>
      RegisterProfile(b, emailAccepted, taken).profile.phoneNumber == Some(Strip(p))
  {
    assert |DigitsOnly(p)| >= MinPhoneDigits && AllChars(p, IsPhoneChar);
    var i := SomeDigit(p);
    NonEmptyRejectsOnlyBlank("Phone", p);
    assert !IsSpace(p[i]);
    PhoneCharsNotNul(p);
    var r := RegisterProfile(b, emailAccepted, taken);
    if b.phoneNumber == Some(p) && r.Registered? {
      assert CopiedFrom(Get(r.profile, PhoneNumber), Sent(b, PhoneNumber));
    }
  }

  lemma PhoneCharsNotNul(p: string)
    requires AllChars(p, IsPhoneChar)
    ensures NulFree(Some(p))
  {
    forall j | 0 <= j < |p| ensures p[j] != '\0' {
      assert IsPhoneChar(p[j]);
    }
  }

  /**
   The client's password check counts characters, the server's trims first:
   a password of four spaces passes the prompt and is rejected as blank.
   */
  lemma BlankPasswordPassesOnlyTheClient()
    ensures ValidatePassword("    ") == Valid
    ensures var b := FinalPayload(Draft("ann", "a@b.cd", "    ", "", "Customer", "", "", "", "", ""));
      PasswordField in InvalidFields(b, _ => true)
  {
    assert Strip("    ") == "";
  }
}

=== FILE: validators.dfy ===
/**
 The registration prompts' input checks. Each check answers Valid or the
 message the prompt shows. Character classes are ASCII: `\d` is 0-9 and
 `\s` is the ASCII whitespace Python recognises (tab, newline, vertical tab,
 form feed, carriage return, the four separators 0x1C-0x1F and space).
 */
module Validators {

  datatype Verdict = Valid | Invalid(message: string)

  const EmailMessage := "Please enter a valid email address (e.g., user@example.com)"
  const UsernameTooShort := "Username must be at least 3 characters long"
  const UsernameBadChars := "Username can only contain letters, numbers, and underscores"
  const PasswordTooShort := "Password must be at least 4 characters long"
  const PhoneBadChars := "Please enter a valid phone number (digits, spaces, +, -, () allowed)"
  const PhoneTooFewDigits := "Phone number must contain at least 7 digits"

  const MinUsernameLength := 3
  const MinPasswordLength := 4
  const MinPhoneDigits := 7

  predicate IsAsciiLetter(c: char) { 'a' <= c <= 'z' || 'A' <= c <= 'Z' }
  predicate IsDigit(c: char) { '0' <= c <= '9' }
  predicate IsSpace(c: char)
  {
    c == ' ' || '\t' <= c <= '\r' || '\U{1C}' <= c <= '\U{1F}'
  }

  /** `[a-zA-Z0-9_]` */
  predicate IsUsernameChar(c: char) { IsAsciiLetter(c) || IsDigit(c) || c == '_' }
  /** `[a-zA-Z0-9._%+-]` */
  predicate IsLocalChar(c: char) { IsAsciiLetter(c) || IsDigit(c) || c in "._%+-" }
  /** `[a-zA-Z0-9.-]` */
  predicate IsDomainChar(c: char) { IsAsciiLetter(c) || IsDigit(c) || c == '.' || c == '-' }
  /** `[\d\s\-\+\(\)]` */
  predicate IsPhoneChar(c: char) { IsDigit(c) || IsSpace(c) || c in "-+()" }

  predicate AllChars(t: string, p: char -> bool)
  {
    forall i :: 0 <= i < |t| ==> p(t[i])
  }

  /**
   Python's `$` under `re.match`: the end of the text, or the position just
   before a final newline. Returns the text the pattern body must cover.
   */
  function DropFinalNewline(s: string): (t: string)
    ensures t == s || (|s| > 0 && s[|s| - 1] == '\n' && t == s[..|s| - 1])
    ensures |s| > 0 && s[|s| - 1] == '\n' ==> t == s[..|s| - 1]
  {
    if |s| > 0 && s[|s| - 1] == '\n' then s[..|s| - 1] else s
  }

  /** The body of `^[a-zA-Z0-9_]+$`. */
  predicate UsernameShape(t: string)
  {
    |t| >= 1 && forall i :: 0 <= i < |t| ==> IsUsernameChar(t[i])
  }

  /** UsernameValidator: the length is checked before the characters. */
  function ValidateUsername(s: string): (v: Verdict)
    ensures v == Valid <==>
      |s| >= 3 && (UsernameShape(s) || (|s| > 0 && s[|s| - 1] == '\n' && UsernameShape(s[..|s| - 1])))
    ensures |s| < 3 ==> v == Invalid(UsernameTooShort)
    ensures |s| >= 3 && v != Valid ==> v == Invalid(UsernameBadChars)
  {
    if |s| < MinUsernameLength then Invalid(UsernameTooShort)
    else if !AllChars(DropFinalNewline(s), IsUsernameChar) then Invalid(UsernameBadChars)
    else Valid
  }

  /** PasswordValidator. */
  function ValidatePassword(s: string): (v: Verdict)
    ensures v == Valid <==> |s| >= 4
    ensures v != Valid ==> v.message == PasswordTooShort
  {
    if |s| < MinPasswordLength then Invalid(PasswordTooShort) else Valid
  }

  /** What `re.sub(r'\D', '', s)` leaves: the digits of `s`, in order. */
  function DigitsOnly(s: string): (r: string)
    ensures |r| <= |s|
    ensures forall i :: 0 <= i < |r| ==> IsDigit(r[i])
    ensures forall i :: 0 <= i < |s| && IsDigit(s[i]) ==> s[i] in r
    ensures AllChars(s, IsDigit) ==> r == s
  {
    if s == [] then []
    else if IsDigit(s[0]) then [s[0]] + DigitsOnly(s[1..]) else DigitsOnly(s[1..])
  }

  /** A text whose digits are not none holds a digit. */
  lemma {:induction false} SomeDigit(s: string) returns (i: nat)
    requires DigitsOnly(s) != []
    ensures i < |s| && IsDigit(s[i])
  {
    if IsDigit(s[0]) {
      i := 0;
    } else {
      var j := SomeDigit(s[1..]);
      i := j + 1;
    }
  }

  /** Each digit occurs in the result as often as in the input, and nothing else occurs. */
  lemma {:induction false} DigitsOnlyCounts(s: string)
    ensures forall c :: multiset(DigitsOnly(s))[c] == if IsDigit(c) then multiset(s)[c] else 0
  {
    if s != [] {
      assert s == [s[0]] + s[1..];
      DigitsOnlyCounts(s[1..]);
    }
  }

  /** Filtering distributes over concatenation, so the digits keep their order. */
  lemma {:induction false} DigitsOnlyAppend(a: string, b: string)
    ensures DigitsOnly(a + b) == DigitsOnly(a) + DigitsOnly(b)
    decreases |a|
  {
    if a != [] {
      var ab := a + b;
      assert ab[0] == a[0];
      assert ab[1..] == a[1..] + b;
      DigitsOnlyAppend(a[1..], b);
      var head := if IsDigit(a[0]) then [a[0]] else [];
      assert DigitsOnly(ab) == head + DigitsOnly(a[1..] + b);
      assert DigitsOnly(a) == head + DigitsOnly(a[1..]);
    } else {
      assert a + b == b;
    }
  }

  /**
   PhoneValidator: the whole text must be phone characters (and not empty),
   and it must hold at least seven digits.
   */
  function ValidatePhone(s: string): (v: Verdict)
    ensures v == Valid <==> |s| > 0 && AllChars(s, IsPhoneChar) && |DigitsOnly(s)| >= 7
    ensures (|s| == 0 || exists i :: 0 <= i < |s| && !IsPhoneChar(s[i])) ==> v == Invalid(PhoneBadChars)
    ensures |s| > 0 && AllChars(s, IsPhoneChar) && |DigitsOnly(s)| < MinPhoneDigits ==> v == Invalid(PhoneTooFewDigits)
    ensures v == Valid ==> |s| >= 7
  {
    if |s| == 0 || !AllChars(s, IsPhoneChar) then Invalid(PhoneBadChars)
    else if |DigitsOnly(s)| < MinPhoneDigits then Invalid(PhoneTooFewDigits)
    else Valid
  }

  /** Python's str.strip(): leading and trailing whitespace removed. */
  function StripLeft(s: string): (r: string)
    ensures |r| <= |s| && r == s[|s| - |r|..]
    ensures r != [] ==> !IsSpace(r[0])
    ensures forall i :: 0 <= i < |s| - |r| ==> IsSpace(s[i])
  {
    if s != [] && IsSpace(s[0]) then StripLeft(s[1..]) else s
  }

  function StripRight(s: string): (r: string)
    ensures |r| <= |s| && r == s[..|r|]
    ensures r != [] ==> !IsSpace(r[|r| - 1])
    ensures forall i :: |r| <= i < |s| ==> IsSpace(s[i])
  {
    if s != [] && IsSpace(s[|s| - 1]) then StripRight(s[..|s| - 1]) else s
  }

  function Strip(s: string): string
  {
    StripRight(StripLeft(s))
  }

  /** NonEmptyValidator: rejects text that is empty once stripped. */
  function ValidateNonEmpty(fieldName: string, s: string): (v: Verdict)
    ensures v == Valid <==> Strip(s) != []
    ensures v != Valid ==> v.message == fieldName + " cannot be empty"
  {
    if Strip(s) == [] then Invalid(fieldName + " cannot be empty") else Valid
  }

  /** Stripping keeps a slice of the text with no whitespace at either end. */
  lemma StripIsTrimmedSlice(s: string)
    ensures exists i, j :: 0 <= i <= j <= |s| && Strip(s) == s[i..j]
    ensures Strip(s) != [] ==> !IsSpace(Strip(s)[0]) && !IsSpace(Strip(s)[|Strip(s)| - 1])
  {
    var l := StripLeft(s);
    var r := StripRight(l);
    var i := |s| - |l|;
    assert r == s[i..i + |r|];
  }

  /** The field is rejected exactly when every character is whitespace. */
  lemma NonEmptyRejectsOnlyBlank(fieldName: string, s: string)
    ensures ValidateNonEmpty(fieldName, s) != Valid <==> forall i :: 0 <= i < |s| ==> IsSpace(s[i])
  {
    var l := StripLeft(s);
    if Strip(s) == [] {
      assert l == [];
    } else {
      var r := Strip(s);
      assert r == l[..|r|];
      assert r[0] == s[|s| - |l|];
    }
  }

  /** Index of the first `c` in `t`, or |t| if there is none. */
  function IndexOf(t: string, c: char): (k: nat)
    ensures k <= |t|
    ensures k < |t| ==> t[k] == c
    ensures forall i :: 0 <= i < k ==> t[i] != c
  {
    if t == [] then 0 else if t[0] == c then 0 else 1 + IndexOf(t[1..], c)
  }

  /** Index of the last `c` in `t`, or -1 if there is none. */
  function LastIndexOf(t: string, c: char): (k: int)
    ensures -1 <= k < |t|
    ensures k >= 0 ==> t[k] == c
    ensures forall i :: k < i < |t| ==> t[i] != c
  {
    if t == [] then -1 else if t[|t| - 1] == c then |t| - 1 else LastIndexOf(t[..|t| - 1], c)
  }

  /** The last occurrence of a character is the index after which it does not occur. */
  lemma LastIndexOfIs(t: string, c: char, k: int)
    requires -1 <= k < |t| && (k >= 0 ==> t[k] == c)
    requires forall i :: k < i < |t| ==> t[i] != c
    ensures LastIndexOf(t, c) == k
  {
  }

  /**
   EmailValidator, as a scan: a non-empty local part before the first '@';
   after it a domain over `[a-zA-Z0-9.-]` whose last '.' has at least one
   character before it and at least two ASCII letters after it.
   */
  predicate IsEmail(s: string)
  {
    var at := IndexOf(s, '@');
    && 1 <= at < |s|
    && AllChars(s[..at], IsLocalChar)
    && var domain := s[at + 1..];
    && AllChars(domain, IsDomainChar)
    && var dot := LastIndexOf(domain, '.');
    && 1 <= dot
    && |domain| - dot - 1 >= 2
    && AllChars(domain[dot + 1..], IsAsciiLetter)
  }

  function ValidateEmail(s: string): (v: Verdict)
    ensures v == Valid <==>
      EmailPattern(s) || (|s| > 0 && s[|s| - 1] == '\n' && EmailPattern(s[..|s| - 1]))
    ensures v != Valid ==> v.message == EmailMessage
  {
    var t := DropFinalNewline(s);
    EmailScanMatchesPattern(t);
    PatternEndsInLetter(s);
    if IsEmail(t) then Valid else Invalid(EmailMessage)
  }

  /** A text the pattern matches ends in a letter, so never in a newline. */
  lemma PatternEndsInLetter(s: string)
    ensures EmailPattern(s) ==> IsAsciiLetter(s[|s| - 1])
  {
    if EmailPattern(s) {
      var a, d :| EmailSplit(s, a, d);
      assert d < |s| - 1;
    }
  }

  /**
   One way of reading `s` as `^[a-zA-Z0-9._%+-]+@[a-zA-Z0-9.-]+\.[a-zA-Z]{2,}$`:
   the '@' sits at `a` and the separating '.' at `d`.
   */
  ghost predicate EmailSplit(s: string, a: int, d: int)
  {
    && 1 <= a && a + 2 <= d && d + 3 <= |s|
    && s[a] == '@' && s[d] == '.'
    && (forall i :: 0 <= i < a ==> IsLocalChar(s[i]))
    && (forall i :: a < i < d ==> IsDomainChar(s[i]))
    && (forall i :: d < i < |s| ==> IsAsciiLetter(s[i]))
  }

  /** The email pattern, read as the regular expression reads it. */
  ghost predicate EmailPattern(s: string)
  {
    exists a, d :: EmailSplit(s, a, d)
  }

  lemma EmailScanMatchesPattern(s: string)
    ensures IsEmail(s) <==> EmailPattern(s)
  {
    if IsEmail(s) {
      ScanGivesSplit(s);
    }
    if EmailPattern(s) {
      var a, d :| EmailSplit(s, a, d);
      SplitGivesScan(s, a, d);
    }
  }

  lemma ScanGivesSplit(s: string)
    requires IsEmail(s)
    ensures EmailPattern(s)
  {
    var a := IndexOf(s, '@');
    var domain := s[a + 1..];
    var dot := LastIndexOf(domain, '.');
    var d := a + 1 + dot;
    var letters := domain[dot + 1..];
    assert AllChars(letters, IsAsciiLetter);
    assert AllChars(domain, IsDomainChar);
    assert AllChars(s[..a], IsLocalChar);
    forall i | a < i < d ensures IsDomainChar(s[i]) {
      assert s[i] == domain[i - a - 1];
    }
    forall i | d < i < |s| ensures IsAsciiLetter(s[i]) {
      assert s[i] == letters[i - d - 1];
    }
    forall i | 0 <= i < a ensures IsLocalChar(s[i]) {
      assert s[i] == s[..a][i];
    }
    assert s[d] == domain[dot];
    assert EmailSplit(s, a, d);
  }

  lemma SplitGivesScan(s: string, a: int, d: int)
    requires EmailSplit(s, a, d)
    ensures IsEmail(s)
  {
    forall i | 0 <= i < a ensures s[i] != '@' {
      assert IsLocalChar(s[i]);
    }
    assert IndexOf(s, '@') == a;
    forall i | 0 <= i < a ensures IsLocalChar(s[..a][i]) {
      assert s[..a][i] == s[i];
    }
    SplitDomain(s, a, d);
  }

  lemma SplitDomain(s: string, a: int, d: int)
    requires EmailSplit(s, a, d)
    ensures var domain := s[a + 1..];
      && AllChars(domain, IsDomainChar)
      && LastIndexOf(domain, '.') == d - a - 1
      && AllChars(domain[d - a..], IsAsciiLetter)
  {
    var domain := s[a + 1..];
    var dot := d - a - 1;
    assert domain[dot] == '.';
    forall i | dot < i < |domain| ensures domain[i] != '.' {
      assert domain[i] == s[a + 1 + i];
    }
    LastIndexOfIs(domain, '.', dot);
    forall i | 0 <= i < |domain| ensures IsDomainChar(domain[i]) {
      assert domain[i] == s[a + 1 + i];
    }
    var letters := domain[dot + 1..];
    forall i | 0 <= i < |letters| ensures IsAsciiLetter(letters[i]) {
      assert letters[i] == s[d + 1 + i];
    }
  }

  /** An accepted email holds exactly one '@'. */
  lemma EmailHasOneAt(s: string)
    requires ValidateEmail(s) == Valid
    ensures exists a :: 0 <= a < |s| && s[a] == '@'
    ensures forall i, j :: 0 <= i < |s| && 0 <= j < |s| && s[i] == '@' && s[j] == '@' ==> i == j
  {
    var t := DropFinalNewline(s);
    assert EmailPattern(t);
    var a, d :| EmailSplit(t, a, d);
    assert s[a] == t[a];
    forall i | 0 <= i < |s| && s[i] == '@' ensures i == a {
      if i < |t| {
        assert t[i] == s[i];
      }
    }
  }

  /** Python's `str.strip` leaves a text with no whitespace at either end as it is. */
  lemma StripKeepsTrimmed(t: string)
    requires |t| >= 1 && !IsSpace(t[0]) && !IsSpace(t[|t| - 1])
    ensures Strip(t) == t
  {
  }

  /** A final newline after trimmed text is stripped away with nothing else. */
  lemma StripFinalNewline(t: string)
    requires |t| >= 1 && !IsSpace(t[0]) && !IsSpace(t[|t| - 1])
    ensures Strip(t + "\n") == t
  {
    var u := t + "\n";
    assert u[0] == t[0];
    assert StripLeft(u) == u;
    assert u[..|u| - 1] == t;
    assert StripRight(u) == StripRight(t);
  }

  /** Trimming removes only whitespace, and NUL is not whitespace: the trimmed text holds a NUL exactly when the text does. */
  lemma NulSurvivesStrip(s: string)
    ensures '\0' in Strip(s) <==> '\0' in s
  {
    var l := StripLeft(s);
    var r := StripRight(l);
    var i := |s| - |l|;
    if '\0' in r {
      var m :| 0 <= m < |r| && r[m] == '\0';
      assert r[m] == l[m] == s[i + m];
    }
    if '\0' in s {
      var k :| 0 <= k < |s| && s[k] == '\0';
      assert !IsSpace(s[k]);
      assert i <= k;
      assert l[k - i] == s[k];
      assert !IsSpace(l[k - i]);
      assert k - i < |r|;
      assert r[k - i] == '\0';
    }
  }

  /** Stripping twice is stripping once. */
  lemma StripIdempotent(s: string)
    ensures Strip(Strip(s)) == Strip(s)
  {
    StripIsTrimmedSlice(s);
    if Strip(s) != [] {
      StripKeepsTrimmed(Strip(s));
    }
  }
}
